=== FILE: README.md ===
# Task manager service — a Dafny model

This project models the core of a small Spring Boot task-manager service. The core has three parts:

- **The `Task` entity.** It has an identity id, a title, a description, a priority, a status, a tag string, `createdAt`, `updatedAt` and a due date. Two validation rules apply: the title must not be blank, and the due date must not fall before the creation day.
- **The repository.** It provides the derived finders, the counts, the overdue count, the next-due query and the recommendation query.
- **The service.** It implements create, read, update and delete by id, the filtered listing, the in-memory search with its optional stable sort, the summary, and the recommendation list.

The table is a value `Store(rows, nextId)`: the rows in id order, plus the next value of the identity column. Every operation is a pure function of one snapshot of the table. A write returns the new store together with what it returned to its caller. Two things outside the program are parameters:

- the clock (`now`, `today`);
- where the SQL engine places NULL in `ORDER BY` (`nullsHigh`).

The tie order of the SQL sorts is taken to be table order.

Dates are day numbers. A `LocalDateTime` is a day number plus the nanosecond within that day.

Modules:

- `Wrappers`: `Option` and `Result`.
- `Seqs`: filter, count, first match and subsequence, with their lemmas.
- `StableSort`: a stable insertion sort. Its result is proved ordered, a permutation of its input, and tie-stable. It is also proved to be the only arrangement with those three properties, so it equals the result of any stable sort, including `List.sort`.
- `Ordering`: three-way comparison of nullable keys.
- `Text`: `isBlank`, `trim`, `toLowerCase`, `contains` and `equalsIgnoreCase`. `@NotBlank` on the title counts a title as blank by `trim` (code points up to U+0020), while the search counts a keyword or tag as blank by `isBlank` (`Character.isWhitespace`).
- `Tasks`: the entity and its validation.
- `TaskOrder`: the due-date, priority-rank and recommendation orders. Each is proved to be a total preorder.
- `TaskRepository`: the table and its queries.
- `TaskService`: the service operations.
- `Scenarios`: worked examples on concrete tables.

Three behaviours of the code are easy to miss; the model follows the code:

- `status != 'DONE'` in SQL excludes rows whose status is NULL. Such tasks are therefore neither overdue nor candidates for "next due", and `findByStatusNot(DONE)` does not return them. They still count as pending, because pending is total minus completed.
- `getSummary` does not report an absent next-due task. It throws, because `Map.of` refuses a null value (see Findings).
- `updateTask` on an unknown id does not return "absent". It returns a freshly constructed blank `Task` whose `createdAt` is the current time.

## Model

| member | source | states |
|---|---|---|
| Tasks.Validate | src/main/java/com/example/task_manager_service/models/Task.java:26-57 | The set of violations is empty exactly when the task is valid. A blank title is reported exactly when the title is missing or every character in it is at or below U+0020, which is what `trim` strips. A due date before the creation day is reported exactly when both dates are present and the due date is earlier. |
| Text.Trim | src/main/java/com/example/task_manager_service/models/Task.java:26 | `trim` returns a contiguous middle part of its input, and every character before or after that part is at or below U+0020. It leaves nothing exactly when every character is at or below U+0020. Otherwise what it leaves starts and ends with a character above U+0020. |
| Tasks.TitleSurvivesTrim | src/main/java/com/example/task_manager_service/models/Task.java:26 | A present title passes `@NotBlank` exactly when `trim` leaves something of it. |
| Tasks.DueDateValidWithoutBothDates | src/main/java/com/example/task_manager_service/models/Task.java:52-55 | With either date missing, the due-date check passes. |
| Tasks.DueDateValidIffNotBeforeCreationDay | src/main/java/com/example/task_manager_service/models/Task.java:56 | With both dates present, the check passes exactly when the due date is on or after the creation day. A due date on the creation day itself is accepted. |
| Tasks.ValidTitleHasVisibleChar | src/main/java/com/example/task_manager_service/models/Task.java:26-27 | A valid task's title exists and contains at least one character above U+0020. |
| Tasks.NewTask | src/main/java/com/example/task_manager_service/models/Task.java:39-47 | A task built from a request body has `createdAt` set to the construction time and no `updatedAt`, since neither can be set by a client. It keeps the client's six editable fields. The model also discards a client-supplied id; `TaskService.CreateTaskAsWritten` models what the code does with one. |
| Tasks.ApplyPatch | src/main/java/com/example/task_manager_service/service/TaskService.java:43-49 | The patched task has the patch's six editable fields, and `updatedAt` is now. The id and `createdAt` are unchanged. |
| Ordering.CompareNullable | src/main/java/com/example/task_manager_service/service/TaskService.java:110 | This is a three-way comparison that returns zero only on equal keys. Present keys compare numerically. An absent key sorts after every present one when `nullsHigh` holds, and before every present one otherwise. |
| Ordering.CompareNullableFlips | src/main/java/com/example/task_manager_service/service/TaskService.java:110 | Swapping the operands negates the comparison, so the comparator is antisymmetric. |
| Ordering.CompareNullableTransitive | src/main/java/com/example/task_manager_service/service/TaskService.java:110 | "Sorts no later than" is transitive, and strictly so when either step is strict. |
| TaskOrder.SearchRank | src/main/java/com/example/task_manager_service/service/TaskService.java:112-119 | The search's rank lies between 0 and 3, and it is 0 exactly for a task without a priority. |
| TaskOrder.SearchRankOrdersPriorities | src/main/java/com/example/task_manager_service/service/TaskService.java:113-118 | The ranks order the priorities HIGH above MEDIUM above LOW above none. Two tasks share a rank only when they share a priority. |
| TaskOrder.SqlRank | src/main/java/com/example/task_manager_service/repository/TaskRepository.java:32 | The SQL `CASE` has no `ELSE`, so the rank is NULL exactly when the priority is NULL. Otherwise it agrees with the search rank. |
| TaskOrder.DueDateOrderIsTotalPreorder | src/main/java/com/example/task_manager_service/service/TaskService.java:110 | The comparator `comparing(dueDate, nullsLast(naturalOrder()))` is total and transitive, which is what `List.sort` requires of it. |
| TaskOrder.PriorityRankOrderIsTotalPreorder | src/main/java/com/example/task_manager_service/service/TaskService.java:112-119 | The descending-rank comparator is total and transitive. |
| TaskOrder.RecommendedCompareFlips | src/main/java/com/example/task_manager_service/repository/TaskRepository.java:31-34 | The three-key recommendation comparison is antisymmetric. |
| TaskOrder.RecommendedCompareTransitive | src/main/java/com/example/task_manager_service/repository/TaskRepository.java:31-34 | The three-key recommendation comparison is transitive. |
| TaskOrder.RecommendedOrderIsTotalPreorder | src/main/java/com/example/task_manager_service/repository/TaskRepository.java:31-34 | The recommendation ordering is a total preorder. |
| Text.LowerChar | src/main/java/com/example/task_manager_service/service/TaskService.java:86-88 | Lower-casing one character never yields an upper-case ASCII letter, and it keeps white space as white space. |
| Text.ToLowerMeaning | src/main/java/com/example/task_manager_service/service/TaskService.java:86-88 | Lower-casing turns each upper-case ASCII letter into its lower-case partner and keeps every other character. No upper-case ASCII letter is left. |
| Text.ToLowerIdempotent | src/main/java/com/example/task_manager_service/service/TaskService.java:86-88 | Lower-casing twice gives the same result as lower-casing once. A string is blank exactly when its lower-cased form is blank. |
| Text.Contains | src/main/java/com/example/task_manager_service/service/TaskService.java:87-88 | `contains` holds exactly when the substring occurs at some position. |
| StableSort.Sort | src/main/java/com/example/task_manager_service/service/TaskService.java:108-120 | The sorted list is a permutation of its input and is ordered. Within every class of tied elements it keeps the input order, as a stable sort must. |
| StableSort.SortIsUnique | src/main/java/com/example/task_manager_service/service/TaskService.java:108-120 | Any ordered, tie-stable arrangement of the input is the sorted list. So every stable sort gives the same result. |
| TaskRepository.EmptyStoreInvariant | src/main/java/com/example/task_manager_service/models/Task.java:22-24 | The empty table, with the identity counter at 1, satisfies the table invariant. |
| TaskRepository.IdsDistinct | src/main/java/com/example/task_manager_service/models/Task.java:22-24 | Under the invariant, no two rows share an id. |
| TaskRepository.FindIndexById | src/main/java/com/example/task_manager_service/service/TaskService.java:36 | Returns a position holding the id, or nothing exactly when no row has the id. |
| TaskRepository.FindById | src/main/java/com/example/task_manager_service/service/TaskService.java:36 | Returns a row of the table with that id, or absent exactly when no row has the id. |
| TaskRepository.InsertRow | src/main/java/com/example/task_manager_service/service/TaskService.java:31 | Saving a new task appends one row and takes the next identity value. Under the invariant that value is fresh. `updatedAt` stays NULL because the column is not insertable. The content is the caller's. |
| TaskRepository.UpdateRow | src/main/java/com/example/task_manager_service/models/Task.java:39-42 | Saving over row `i` changes only that row. It keeps the stored `createdAt`, because the column is not updatable. |
| TaskRepository.DeleteById | src/main/java/com/example/task_manager_service/service/TaskService.java:59 | Afterwards no row has the id. Every other row is still there, in the same relative order. |
| TaskRepository.FindByStatus | src/main/java/com/example/task_manager_service/repository/TaskRepository.java:15 | Returns exactly the rows with that status, in table order. |
| TaskRepository.FindByPriority | src/main/java/com/example/task_manager_service/repository/TaskRepository.java:17 | Returns exactly the rows with that priority, in table order. |
| TaskRepository.FindByStatusAndPriority | src/main/java/com/example/task_manager_service/repository/TaskRepository.java:19 | Returns exactly the rows that both single-field finders return. |
| TaskRepository.StatusAndPriorityIsIntersection | src/main/java/com/example/task_manager_service/repository/TaskRepository.java:19 | The two-field finder equals the status finder's result narrowed by priority, in the same order. |
| TaskRepository.FindByStatusNot | src/main/java/com/example/task_manager_service/repository/TaskRepository.java:37 | Returns exactly the rows that have a status and whose status differs from the given one. |
| TaskRepository.StatusNotIsComplement | src/main/java/com/example/task_manager_service/repository/TaskRepository.java:37 | The "status is s" and "status is not s" finders split the rows that have a status. Together with the rows without a status, they account for every row. |
| TaskRepository.CountByStatus | src/main/java/com/example/task_manager_service/repository/TaskRepository.java:21 | The count equals the number of rows `findByStatus` returns. |
| TaskRepository.CountByPriority | src/main/java/com/example/task_manager_service/repository/TaskRepository.java:23 | The count equals the number of rows `findByPriority` returns. |
| TaskRepository.CountOverdueTasks | src/main/java/com/example/task_manager_service/repository/TaskRepository.java:25-26 | Counts the open rows due strictly before today. The result never exceeds the number of open rows. |
| TaskRepository.FindNextDueTask | src/main/java/com/example/task_manager_service/repository/TaskRepository.java:28-29 | The result is absent exactly when no row is open. Otherwise it is an open row whose due date sorts no later than that of any open row. |
| TaskRepository.NextDueTaskIsEarliest | src/main/java/com/example/task_manager_service/repository/TaskRepository.java:28-29 | A dated next-due task is due no later than every dated open task. When NULL sorts last, the next-due task is dated whenever some open task is dated. |
| TaskRepository.FindRecommendedTasks | src/main/java/com/example/task_manager_service/repository/TaskRepository.java:31-35 | Returns every row exactly once, ordered by the three recommendation keys. |
| TaskRepository.RecommendedOrderByKeys | src/main/java/com/example/task_manager_service/repository/TaskRepository.java:31-34 | Reading the keys one at a time: the earlier task ranks at least as high. At equal priority, the earlier task is due no later. At equal priority and due date, the earlier task has the description that is at least as long. |
| TaskService.CreateTask | src/main/java/com/example/task_manager_service/service/TaskService.java:29-32 | Create succeeds exactly when the title is not blank and the due date is not before today. A refusal leaves the table unchanged and reports exactly the violations the validator finds in the task built from the body. A success appends the task with a fresh id, `createdAt` now, no `updatedAt`, and the client's content. |
| TaskService.CreatePreservesInvariant | src/main/java/com/example/task_manager_service/service/TaskService.java:29-32 | Create keeps the table invariant. |
| TaskService.CreateKeepsExistingTasks | src/main/java/com/example/task_manager_service/service/TaskService.java:29-32 | Create never changes what an existing id finds. |
| TaskService.CreateTaskAsWritten | src/main/java/com/example/task_manager_service/service/TaskService.java:29-32 | Without a body id, or with one that names no row, this is `CreateTask`. With a body id that names a row, it succeeds exactly when `CreateTask` would, and a refusal reports the same violations. On success that row is overwritten in place: the table keeps its size, every row with another id is unchanged, the id finds the body's content, the stored `createdAt` stays, and `updatedAt` becomes NULL. The task returned to the caller is the merged instance: it has the body's content and id, no `updatedAt`, and `createdAt` set to the request time rather than the stored value. |
| TaskService.CreateWithExistingIdOverwrites | src/main/java/com/example/task_manager_service/service/TaskService.java:31 | For a body naming an existing id, the as-written create replaces that task and leaves every other task unchanged. `CreateTask` keeps it and adds one more. |
| TaskService.GetTaskById | src/main/java/com/example/task_manager_service/service/TaskService.java:34-37 | Returns the task with that id, or absent exactly when there is none. |
| TaskService.UpdateTask | src/main/java/com/example/task_manager_service/service/TaskService.java:39-55 | "Not found" is reported exactly when no task has the id. A miss or a refusal leaves the table unchanged. A success keeps the id and `createdAt`, stamps `updatedAt`, takes the patch's content, and leaves every other row unchanged. A subsequent read finds the new row. The update succeeds exactly when the merged row is valid, and a refusal reports exactly the validator's violations for the merged row. |
| TaskService.UpdateTaskReturn | src/main/java/com/example/task_manager_service/service/TaskService.java:41-54 | On a miss the caller gets the blank `new Task()`, and only then. The returned task lacks an id exactly on a miss. A refusal returns exactly the violations `UpdateTask` reports as `Invalid`. |
| TaskService.UpdatePreservesInvariant | src/main/java/com/example/task_manager_service/service/TaskService.java:39-55 | Update keeps the table invariant. |
| TaskService.DeleteTask | src/main/java/com/example/task_manager_service/service/TaskService.java:57-60 | Afterwards no task has the id, and every other task remains. Nothing is added, the order is kept, and the identity counter is unchanged. |
| TaskService.DeleteAbsentIsNoOp | src/main/java/com/example/task_manager_service/service/TaskService.java:57-60 | Deleting an unknown id changes nothing. |
| TaskService.DeleteIsIdempotent | src/main/java/com/example/task_manager_service/service/TaskService.java:57-60 | Deleting twice has the same effect as deleting once. |
| TaskService.DeleteKeepsOthers | src/main/java/com/example/task_manager_service/service/TaskService.java:57-60 | Deleting one id does not change what a lookup of any other id returns. |
| TaskService.DeletePreservesInvariant | src/main/java/com/example/task_manager_service/service/TaskService.java:57-60 | Delete keeps the table invariant. |
| TaskService.ListTasks | src/main/java/com/example/task_manager_service/service/TaskService.java:62-76 | With both filters, returns the intersection of the two finders. With one filter, returns exactly the tasks matching it. With none, returns the whole table. The result is always in table order. |
| TaskService.ListTasksIsOneFilter | src/main/java/com/example/task_manager_service/service/TaskService.java:62-76 | All four branches amount to one filter: keep the tasks that agree with every filter given. |
| TaskService.Matched | src/main/java/com/example/task_manager_service/service/TaskService.java:80-107 | The scan keeps tasks in table order. |
| TaskService.SearchTask | src/main/java/com/example/task_manager_service/service/TaskService.java:78-123 | A task is returned exactly when it meets the keyword, tag, after and before conditions, and each kept task appears once. With no recognised `sortBy`, the result is in scan order. Sorting by due date gives ascending order with undated tasks last. Sorting by priority gives descending rank. Both sorts keep ties in scan order. |
| TaskService.SearchSortIsDetermined | src/main/java/com/example/task_manager_service/service/TaskService.java:108-121 | Any ordered, tie-stable arrangement of the matches is the search result. So `List.sort`'s stable sort gives the same result. |
| TaskService.DueDateSortOrder | src/main/java/com/example/task_manager_service/service/TaskService.java:110 | In a due-date sort, dated tasks ascend and no dated task follows an undated one. |
| TaskService.PrioritySortOrder | src/main/java/com/example/task_manager_service/service/TaskService.java:112-119 | In a priority sort the rank never rises: HIGH, then MEDIUM, then LOW, then tasks without a priority. |
| TaskService.KeywordMatchIgnoresCase | src/main/java/com/example/task_manager_service/service/TaskService.java:85-92 | A keyword and its lower-cased form match the same tasks. |
| TaskService.KeywordMatchIsSubstring | src/main/java/com/example/task_manager_service/service/TaskService.java:85-92 | An absent or blank keyword matches every task. A given keyword matches exactly when its lower-cased form occurs in the lower-cased title or the lower-cased description. |
| TaskService.TagMatchIsSubstring | src/main/java/com/example/task_manager_service/service/TaskService.java:93-97 | An absent or blank tag matches every task. A given tag matches exactly when it occurs, with its case kept, in the tag string. |
| TaskService.DateBounds | src/main/java/com/example/task_manager_service/service/TaskService.java:98-103 | `after` is an inclusive lower bound and `before` an exclusive upper bound. Either one excludes undated tasks. |
| TaskService.GetSummary | src/main/java/com/example/task_manager_service/service/TaskService.java:125-144 | `total` is the row count. `completed` is the number of DONE rows. `pending` is their difference and is never negative. Each priority count matches its finder, and together the three never exceed `total`. `overdue` counts the open tasks past due and never exceeds `pending`. The next-due task is absent exactly when no task is open. |
| TaskService.PriorityCountsBounded | src/main/java/com/example/task_manager_service/service/TaskService.java:130-132 | The HIGH, MEDIUM and LOW counts add up to at most the number of rows. |
| TaskService.GetSummaryAsWritten | src/main/java/com/example/task_manager_service/service/TaskService.java:134-143 | The summary as written fails exactly when no task is open. Otherwise it equals the corrected summary. |
| TaskService.SummaryAsWrittenFailsOnEmptyStore | src/main/java/com/example/task_manager_service/service/TaskService.java:134-143 | On an empty table the summary as written fails, where the corrected summary reports zero tasks. |
| TaskService.GetRecommended | src/main/java/com/example/task_manager_service/service/TaskService.java:146-149 | Returns every task exactly once, ordered by the three recommendation keys. |
| Scenarios.SearchAfterExample | src/main/java/com/example/task_manager_service/service/TaskService.java:98-100 | Of two tasks due on 2024-01-10 and 2024-02-01, `after = 2024-01-15` keeps only the second. |
| Scenarios.SearchBeforeExample | src/main/java/com/example/task_manager_service/service/TaskService.java:101-103 | `before = 2024-02-01` excludes the task due on exactly that day. |
| Scenarios.ReportQueryMatches | src/main/java/com/example/task_manager_service/service/TaskService.java:85-92 | The keyword "report" matches "Write report" and does not match "Buy milk". |
| Scenarios.SearchKeywordExample | src/main/java/com/example/task_manager_service/service/TaskService.java:85-92 | Searching the two tasks for "report" returns only "Write report". |
| Scenarios.PrioritiesDecide | src/main/java/com/example/task_manager_service/repository/TaskRepository.java:32 | At equal due dates, HIGH strictly precedes MEDIUM, and MEDIUM strictly precedes LOW. |
| Scenarios.RecommendationExample | src/main/java/com/example/task_manager_service/repository/TaskRepository.java:31-35 | A table stored as LOW, HIGH, MEDIUM is recommended as HIGH, MEDIUM, LOW, whatever the NULL placement. |
| Scenarios.PrioritySearchExample | src/main/java/com/example/task_manager_service/service/TaskService.java:111-119 | Tasks stored as LOW, none, HIGH, MEDIUM are searched with `sortBy = priority` and come back as HIGH, MEDIUM, LOW, then the task without a priority. |
| Scenarios.SortKeyExamples | src/main/java/com/example/task_manager_service/service/TaskService.java:108-111 | `sortBy` is compared ignoring case. "DUEDATE" and "Priority" select their sorts. "due_date" and an absent value keep scan order. |
| Scenarios.TitleBlanknessIsNotKeywordBlankness | src/main/java/com/example/task_manager_service/models/Task.java:26 | A title of the ideographic space U+3000 passes `@NotBlank`, yet the same text as a search keyword is blank. A title of the control character U+0001 fails `@NotBlank`, yet as a keyword it is not blank. |
| Scenarios.CreateWithIdExample | src/main/java/com/example/task_manager_service/service/TaskService.java:29-32 | A create body naming id 1 replaces "Buy milk" as written. The corrected create keeps "Buy milk" and adds a third task. |
| Scenarios.SummaryAsWrittenFailsWhenAllDone | src/main/java/com/example/task_manager_service/service/TaskService.java:134-143 | A table whose only task is DONE has a summary to report: one completed task and no next-due task. The summary as written still fails on it. |

## Left out

- The HTTP controller is not modelled. That covers request binding, status codes, the 404 detection by `equals(new Task())`, and the stricter `@Valid` check it applies to an update's request body. CSV export is also outside the core.
- The daily `pendingTasks` job is not modelled: it only logs what `findByStatusNot(DONE)` returns, which `TaskRepository.FindByStatusNot` models, and the cron trigger and logging are I/O.
- Logging, Spring wiring and the JPA persistence context (dirty checking, flush timing) are not modelled.
- Concurrency is not modelled. Each operation reads one snapshot, so the summary's counts are taken from a single state of the table.
- Tasks.NewTask: discards a client-supplied id. The id field is not read-only, so a request body can set it, and `save` then merges instead of inserting. `TaskService.CreateTaskAsWritten` models that path, and the Findings record it.
- TaskService.CreateTask: is the corrected create, which always inserts a new row whatever id the body carries.
- TaskService.CreateTaskAsWritten: a body id that names no row is inserted under a fresh id. Hibernate before 6.6 does this when merging; later versions reject such a merge instead.
- Text.LowerChar: lower-cases only ASCII letters, because `toLowerCase` uses the full Unicode case mapping, which is beyond the model; `equalsIgnoreCase` is approximated the same way.
- TaskRepository.FindNextDueTask: ties between equal due dates, and the SQL queries' ties in general, are taken in table order. SQL leaves that order unspecified.
- TaskRepository.FindRecommendedTasks: NULL placement is the `nullsHigh` parameter. It is not fixed to one database engine.
- TaskService.GetSummary: counts are unbounded integers, because a Java `long` cannot overflow at any realistic table size.
- The clock is a parameter (`now`, `today`). `updatedAt` is modelled as the service's explicit stamp. JPA auditing is not enabled (no entity listener is registered, and the application does not enable it), so `@CreatedDate` and `@LastModifiedDate` have no effect.

## Findings

| source | as written | input that shows it | evidently intended | confidence | as-written member | corrected member |
|---|---|---|---|---|---|---|
| src/main/java/com/example/task_manager_service/service/TaskService.java:134-143 | The summary is built with `Map.of`, which throws `NullPointerException` on a null value. `findNextDueTask` returns null when no task is open. | An empty table, or a table whose every task is DONE | A summary with an absent `nextDueTask`, as for any other count of zero | high, not executed | TaskService.GetSummaryAsWritten | TaskService.GetSummary |
| src/main/java/com/example/task_manager_service/service/TaskService.java:29-32 | `createTask` saves the request body as given. The id field is not read-only, so a body can carry an id, and `save` then merges the body over the row with that id. | A create body whose id names an existing task, such as id 1 with title "Pay rent" | Create always adds a new task with a store-assigned id, leaving existing tasks alone | medium, not executed | TaskService.CreateTaskAsWritten | TaskService.CreateTask |

=== FILE: ordering.dfy ===
/**
 * Three-way comparison of nullable integer keys (due dates as day numbers,
 * priority ranks, description lengths). Java's `Comparator.nullsLast` and
 * an SQL `ORDER BY` both order present values naturally and put every
 * absent value on one side; `nullsHigh` says which side: `true` when an
 * absent value sorts after every present one.
 */
module Ordering {
  import opened Wrappers

  /** Negative, zero or positive as `a` sorts before, level with, or after `b` in ascending order. */
  function CompareNullable(a: Option<int>, b: Option<int>, nullsHigh: bool): (c: int)
    ensures -1 <= c <= 1
    ensures c == 0 <==> a == b
    ensures a.Some? && b.Some? ==> (c < 0 <==> a.value < b.value)
    ensures a.None? && b.Some? ==> (c > 0 <==> nullsHigh)
    ensures a.Some? && b.None? ==> (c < 0 <==> nullsHigh)
  {
    match (a, b)
    case (None, None) => 0
    case (None, Some(_)) => if nullsHigh then 1 else -1
    case (Some(_), None) => if nullsHigh then -1 else 1
    case (Some(x), Some(y)) => if x < y then -1 else if x > y then 1 else 0
  }

  /** Swapping the operands flips the sign. */
  lemma CompareNullableFlips(a: Option<int>, b: Option<int>, nullsHigh: bool)
    ensures CompareNullable(b, a, nullsHigh) == -CompareNullable(a, b, nullsHigh)
  {
  }

  /** "Sorts no later than" is transitive, and strictly so when either step is strict. */
  lemma CompareNullableTransitive(a: Option<int>, b: Option<int>, c: Option<int>, nullsHigh: bool)
    requires CompareNullable(a, b, nullsHigh) <= 0 && CompareNullable(b, c, nullsHigh) <= 0
    ensures CompareNullable(a, c, nullsHigh) <= 0
    ensures CompareNullable(a, b, nullsHigh) < 0 || CompareNullable(b, c, nullsHigh) < 0
            ==> CompareNullable(a, c, nullsHigh) < 0
  {
  }
}

=== FILE: repository.dfy ===
/**
 * The task table and the queries the repository interface declares, as pure
 * functions of one snapshot of the table. Rows are kept in insertion order,
 * which is id order because ids come from an identity column; that is the
 * order the derived finders return. "Today" is a parameter, and so is the
 * SQL engine's placement of NULL in `ORDER BY` (`nullsHigh`: NULL sorts as
 * larger than every value).
 */
module TaskRepository {
  import opened Wrappers
  import opened Tasks
  import opened Seqs
  import opened StableSort
  import opened Ordering
  import opened TaskOrder

  /** The table's rows in id order, and the next value of the identity column. */
  datatype Store = Store(rows: seq<Task>, nextId: int)

  const EmptyStore: Store := Store([], 1)

  /**
   * What every write path maintains: each row has a generated id below the
   * next one, ids ascend with position (so they are distinct), and each row
   * passed validation and carries its creation time.
   */
  ghost predicate Invariant(st: Store) {
    && (forall i :: 0 <= i < |st.rows| ==> st.rows[i].id.Some? && st.rows[i].id.value < st.nextId)
    && (forall i, j :: 0 <= i < j < |st.rows| ==> st.rows[i].id.value < st.rows[j].id.value)
    && (forall i :: 0 <= i < |st.rows| ==> IsValid(st.rows[i]) && st.rows[i].createdAt.Some?)
  }

  lemma EmptyStoreInvariant()
    ensures Invariant(EmptyStore)
  {
  }

  /** Under the invariant, an id names at most one row. */
  lemma IdsDistinct(st: Store)
    requires Invariant(st)
    ensures forall i, j :: 0 <= i < |st.rows| && 0 <= j < |st.rows| && st.rows[i].id == st.rows[j].id ==> i == j
  {
  }

  // ---------------------------------------------------------------- by id

  function HasId(id: int): Task -> bool {
    (t: Task) => t.id == Some(id)
  }

  /** The position of the row with the given id. */
  function FindIndexById(st: Store, id: int): (r: Option<nat>)
    ensures r.Some? ==> r.value < |st.rows| && st.rows[r.value].id == Some(id)
    ensures r.None? <==> forall t :: t in st.rows ==> t.id != Some(id)
  {
    FindFirst(st.rows, HasId(id))
  }

  /** `findById`: the row with the given id, or absent. */
  function FindById(st: Store, id: int): (r: Option<Task>)
    ensures r.Some? ==> r.value in st.rows && r.value.id == Some(id)
    ensures r.None? <==> forall t :: t in st.rows ==> t.id != Some(id)
  {
    match FindIndexById(st, id)
    case None => None
    case Some(i) => Some(st.rows[i])
  }

  /** Looking up an id in a table with a row in front: that row if it matches, otherwise the rest. */
  lemma FindByIdCons(head: Task, rows: seq<Task>, nextId: int, id: int)
    ensures FindById(Store([head] + rows, nextId), id)
         == if head.id == Some(id) then Some(head) else FindById(Store(rows, nextId), id)
  {
    var all := [head] + rows;
    assert all[1..] == rows;
    if head.id != Some(id) {
      match FindFirst(rows, HasId(id))
      case None =>
      case Some(k) => assert all[k + 1] == rows[k];
    }
  }

  /** Appending a row does not change what an id already present finds. */
  lemma FindByIdAppend(st: Store, t: Task, nextId: int, id: int)
    requires FindById(st, id).Some?
    ensures FindById(Store(st.rows + [t], nextId), id) == FindById(st, id)
  {
    var i := FindIndexById(st, id).value;
    var rows := st.rows + [t];
    assert rows[i] == st.rows[i];
    assert forall j :: 0 <= j < i ==> rows[j] == st.rows[j];
  }

  /**
   * `save` of a new entity: the identity column supplies the id and the
   * `updatedAt` column, not insertable, stays NULL.
   */
  function InsertRow(st: Store, t: Task): (r: (Store, Task))
    ensures r.0.rows == st.rows + [r.1] && r.0.nextId == st.nextId + 1
    ensures r.1.id == Some(st.nextId)
    ensures Invariant(st) ==> forall u :: u in st.rows ==> u.id != r.1.id
    ensures SameContent(r.1, t) && r.1.createdAt == t.createdAt && r.1.updatedAt.None?
  {
    var saved := t.(id := Some(st.nextId), updatedAt := None);
    (Store(st.rows + [saved], st.nextId + 1), saved)
  }

  /**
   * `save` of an entity loaded from row `i`: the row is overwritten, except
   * that the `createdAt` column is not updatable and keeps its stored value.
   */
  function UpdateRow(st: Store, i: nat, t: Task): (r: (Store, Task))
    requires i < |st.rows|
    ensures |r.0.rows| == |st.rows| && r.0.nextId == st.nextId
    ensures r.0.rows[i] == r.1
    ensures forall j :: 0 <= j < |st.rows| && j != i ==> r.0.rows[j] == st.rows[j]
    ensures r.1.createdAt == st.rows[i].createdAt
    ensures SameContent(r.1, t) && r.1.id == t.id && r.1.updatedAt == t.updatedAt
  {
    var saved := t.(createdAt := st.rows[i].createdAt);
    (st.(rows := st.rows[i := saved]), saved)
  }

  function LacksId(id: int): Task -> bool {
    (t: Task) => t.id != Some(id)
  }

  /** `deleteById`: removes the row with that id; an unknown id is not an error. */
  function DeleteById(st: Store, id: int): (r: Store)
    ensures FindById(r, id).None?
    ensures IsSubsequence(r.rows, st.rows) && r.nextId == st.nextId
    ensures forall t :: t in st.rows && t.id != Some(id) ==> t in r.rows
  {
    Store(Filter(st.rows, LacksId(id)), st.nextId)
  }

  // ---------------------------------------------------------------- derived finders

  function HasStatus(s: Status): Task -> bool {
    (t: Task) => t.status == Some(s)
  }

  function HasPriority(p: Priority): Task -> bool {
    (t: Task) => t.priority == Some(p)
  }

  function HasStatusAndPriority(s: Status, p: Priority): Task -> bool {
    (t: Task) => t.status == Some(s) && t.priority == Some(p)
  }

  /** `status <> ?` in SQL: a row whose status is NULL satisfies neither `=` nor `<>`. */
  function StatusIsNot(s: Status): Task -> bool {
    (t: Task) => t.status.Some? && t.status.value != s
  }

  /** `findByStatus`: exactly the rows with that status, in table order. */
  function FindByStatus(st: Store, s: Status): (r: seq<Task>)
    ensures forall t :: t in r <==> t in st.rows && t.status == Some(s)
    ensures IsSubsequence(r, st.rows)
  {
    Filter(st.rows, HasStatus(s))
  }

  /** `findByPriority`: exactly the rows with that priority, in table order. */
  function FindByPriority(st: Store, p: Priority): (r: seq<Task>)
    ensures forall t :: t in r <==> t in st.rows && t.priority == Some(p)
    ensures IsSubsequence(r, st.rows)
  {
    Filter(st.rows, HasPriority(p))
  }

  /** `findByStatusAndPriority`: the rows both single-field finders return. */
  function FindByStatusAndPriority(st: Store, s: Status, p: Priority): (r: seq<Task>)
    ensures forall t :: t in r <==> t in FindByStatus(st, s) && t in FindByPriority(st, p)
    ensures IsSubsequence(r, st.rows)
  {
    Filter(st.rows, HasStatusAndPriority(s, p))
  }

  /** The two-field finder is the status finder narrowed by priority, order included. */
  lemma StatusAndPriorityIsIntersection(st: Store, s: Status, p: Priority)
    ensures FindByStatusAndPriority(st, s, p) == Filter(FindByStatus(st, s), HasPriority(p))
  {
    FilterConjunction(st.rows, HasStatus(s), HasPriority(p), HasStatusAndPriority(s, p));
  }

  /** `findByStatusNot`: the rows that have a status other than `s`. */
  function FindByStatusNot(st: Store, s: Status): (r: seq<Task>)
    ensures forall t :: t in r <==> t in st.rows && t.status.Some? && t.status.value != s
    ensures IsSubsequence(r, st.rows)
  {
    Filter(st.rows, StatusIsNot(s))
  }

  function HasNoStatus(t: Task): bool {
    t.status.None?
  }

  /**
   * `findByStatusNot(s)` and `findByStatus(s)` split the rows that have a
   * status between them; rows without a status are in neither.
   */
  lemma {:induction false} StatusNotIsComplement(st: Store, s: Status)
    ensures forall t :: t in st.rows && t.status.Some? ==> (t in FindByStatusNot(st, s) <==> t !in FindByStatus(st, s))
    ensures |FindByStatus(st, s)| + |FindByStatusNot(st, s)| + Count(st.rows, HasNoStatus) == |st.rows|
    decreases |st.rows|
  {
    if |st.rows| > 0 {
      StatusNotIsComplement(Store(st.rows[1..], st.nextId), s);
    }
  }

  // ---------------------------------------------------------------- counts

  /** `countByStatus`: as many as `findByStatus` returns. */
  function CountByStatus(st: Store, s: Status): (n: nat)
    ensures n == |FindByStatus(st, s)|
  {
    Count(st.rows, HasStatus(s))
  }

  /** `countByPriority`: as many as `findByPriority` returns. */
  function CountByPriority(st: Store, p: Priority): (n: nat)
    ensures n == |FindByPriority(st, p)|
  {
    Count(st.rows, HasPriority(p))
  }

  /** Not finished, in the SQL sense of `status != 'DONE'`. */
  predicate IsOpen(t: Task) {
    t.status.Some? && t.status.value != Done
  }

  function IsOverdue(today: Date): Task -> bool {
    t => IsOpen(t) && t.dueDate.Some? && t.dueDate.value < today
  }

  /** `countOverdueTasks`: open rows due strictly before today; never more than the open rows. */
  function CountOverdueTasks(st: Store, today: Date): (n: nat)
    ensures n == |Filter(st.rows, IsOverdue(today))|
    ensures n <= |FindByStatusNot(st, Done)|
  {
    CountImplied(st.rows, IsOverdue(today), StatusIsNot(Done));
    Count(st.rows, IsOverdue(today))
  }

  /** `findNextDueTask`: the first open row by ascending due date, ties in table order. */
  function FindNextDueTask(st: Store, nullsHigh: bool): (r: Option<Task>)
    ensures r.None? <==> forall t :: t in st.rows ==> !IsOpen(t)
    ensures r.Some? ==> r.value in st.rows && IsOpen(r.value)
    ensures r.Some? ==> forall t :: t in st.rows && IsOpen(t) ==> CompareNullable(r.value.dueDate, t.dueDate, nullsHigh) <= 0
  {
    DueDateOrderIsTotalPreorder(nullsHigh);
    var open := Filter(st.rows, IsOpen);
    if |open| == 0 then None
    else
      SortFirstIsLeast(open, DueDateOrder(nullsHigh));
      Some(Sort(open, DueDateOrder(nullsHigh))[0])
  }

  /** `findRecommendedTasks`: every row, ordered by the recommendation keys. */
  function FindRecommendedTasks(st: Store, nullsHigh: bool): (r: seq<Task>)
    ensures multiset(r) == multiset(st.rows)
    ensures forall i, j :: 0 <= i < j < |r| ==> RecommendedCompare(r[i], r[j], nullsHigh) <= 0
  {
    RecommendedOrderIsTotalPreorder(nullsHigh);
    Sort(st.rows, RecommendedOrder(nullsHigh))
  }

  /**
   * The next-due task is due no later than any open task that has a due
   * date, and when NULL sorts last it has a due date whenever some open
   * task does.
   */
  lemma NextDueTaskIsEarliest(st: Store, nullsHigh: bool)
    requires FindNextDueTask(st, nullsHigh).Some?
    ensures var next := FindNextDueTask(st, nullsHigh).value;
      && (next.dueDate.Some? ==>
            forall t :: t in st.rows && IsOpen(t) && t.dueDate.Some? ==> next.dueDate.value <= t.dueDate.value)
      && (nullsHigh && (exists t :: t in st.rows && IsOpen(t) && t.dueDate.Some?) ==> next.dueDate.Some?)
  {
  }

  /**
   * The recommendation order read key by key: of two tasks with priorities
   * the earlier ranks at least as high; at equal priority and with due dates
   * the earlier is due no later; at equal priority and due date and with
   * descriptions the earlier has the longer description.
   */
  lemma RecommendedOrderByKeys(st: Store, nullsHigh: bool, i: int, j: int)
    requires 0 <= i < j < |FindRecommendedTasks(st, nullsHigh)|
    ensures var r := FindRecommendedTasks(st, nullsHigh);
      && (r[i].priority.Some? && r[j].priority.Some? ==> SearchRank(r[i].priority) >= SearchRank(r[j].priority))
      && (r[i].priority == r[j].priority && r[i].dueDate.Some? && r[j].dueDate.Some? ==>
            r[i].dueDate.value <= r[j].dueDate.value)
      && (r[i].priority == r[j].priority && r[i].dueDate == r[j].dueDate
          && r[i].description.Some? && r[j].description.Some? ==>
            |r[i].description.value| >= |r[j].description.value|)
  {
    var r := FindRecommendedTasks(st, nullsHigh);
    assert RecommendedCompare(r[i], r[j], nullsHigh) <= 0;
  }
}

=== FILE: scenarios.dfy ===
/**
 * Worked examples of the search and recommendation semantics on small,
 * concrete stores. Dates are day numbers counted from 1970-01-01:
 * 19732 is 2024-01-10, 19737 is 2024-01-15 and 19754 is 2024-02-01.
 */
module Scenarios {
  import opened Wrappers
  import opened Tasks
  import opened Seqs
  import opened StableSort
  import opened TaskOrder
  import opened TaskRepository
  import opened TaskService
  import Text

  const Created: DateTime := DateTime(19700, 0)

  const BuyMilk: Task := Task(Some(1), Some("Buy milk"), None, None, None, Some("home"), Some(Created), None, Some(19732))

  const WriteReport: Task :=
    Task(Some(2), Some("Write report"), None, None, None, Some("work,urgent"), Some(Created), None, Some(19754))

  const TwoTasks: Store := Store([BuyMilk, WriteReport], 3)

  function DateQuery(after: Option<Date>, before: Option<Date>): SearchQuery {
    SearchQuery(None, None, after, before, None)
  }

  /** `after` is inclusive: only the task due on or after 2024-01-15 is found. */
  lemma SearchAfterExample()
    ensures SearchTask(TwoTasks, DateQuery(Some(19737), None)) == [WriteReport]
  {
    var q := DateQuery(Some(19737), None);
    assert !MatchesQuery(q)(BuyMilk) && MatchesQuery(q)(WriteReport);
    FilterCons(BuyMilk, [WriteReport], MatchesQuery(q));
    FilterCons(WriteReport, [], MatchesQuery(q));
  }

  /** `before` is exclusive: the task due exactly on 2024-02-01 is left out. */
  lemma SearchBeforeExample()
    ensures SearchTask(TwoTasks, DateQuery(None, Some(19754))) == [BuyMilk]
  {
    var q := DateQuery(None, Some(19754));
    assert MatchesQuery(q)(BuyMilk) && !MatchesQuery(q)(WriteReport);
    FilterCons(BuyMilk, [WriteReport], MatchesQuery(q));
    FilterCons(WriteReport, [], MatchesQuery(q));
  }

  lemma ReportIsNotInBuyMilk()
    ensures !Text.Contains("buy milk", "report")
  {
    forall i | 0 <= i <= 2 ensures !Text.OccursAt("buy milk", "report", i) {
      assert "buy milk"[i..i + 6][4] == "buy milk"[i + 4] != 'r';
    }
  }

  lemma ReportIsInWriteReport()
    ensures Text.Contains("write report", "report")
  {
    assert "write report"[6..12] == "report";
    assert Text.OccursAt("write report", "report", 6);
  }

  const ReportQuery: SearchQuery := SearchQuery(Some("report"), None, None, None, None)

  lemma ReportQueryMatches()
    ensures !MatchesQuery(ReportQuery)(BuyMilk) && MatchesQuery(ReportQuery)(WriteReport)
  {
    BuyMilkMissesReport();
    WriteReportHasReport();
  }

  lemma BuyMilkMissesReport()
    ensures !KeywordMatches(Some("report"), BuyMilk)
  {
    assert Text.ToLower("report") == "report" && Text.ToLower("Buy milk") == "buy milk";
    ReportIsNotInBuyMilk();
  }

  lemma WriteReportHasReport()
    ensures KeywordMatches(Some("report"), WriteReport)
  {
    assert !Text.IsWhitespace("report"[0]);
    assert Text.ToLower("report") == "report" && Text.ToLower("Write report") == "write report";
    ReportIsInWriteReport();
  }

  /** The keyword "report" is found in one title and not in the other. */
  lemma SearchKeywordExample()
    ensures SearchTask(TwoTasks, ReportQuery) == [WriteReport]
  {
    ReportQueryMatches();
    FilterCons(BuyMilk, [WriteReport], MatchesQuery(ReportQuery));
    FilterCons(WriteReport, [], MatchesQuery(ReportQuery));
  }

  function Prioritized(id: int, p: Priority): Task {
    Task(Some(id), Some("task"), None, Some(p), None, None, Some(Created), None, Some(19754))
  }

  const LowFirst: Store := Store([Prioritized(1, Low), Prioritized(2, High), Prioritized(3, Medium)], 4)

  /** Same due date and no descriptions: the priority alone decides, strictly. */
  lemma PrioritiesDecide(nullsHigh: bool)
    ensures RecommendedCompare(Prioritized(2, High), Prioritized(3, Medium), nullsHigh) < 0
    ensures RecommendedCompare(Prioritized(3, Medium), Prioritized(1, Low), nullsHigh) < 0
    ensures RecommendedCompare(Prioritized(2, High), Prioritized(1, Low), nullsHigh) < 0
  {
    Ordering.CompareNullableFlips(Some(3), Some(2), nullsHigh);
  }

  /** With equal due dates, LOW, HIGH, MEDIUM in the table are recommended as HIGH, MEDIUM, LOW. */
  lemma RecommendationExample(nullsHigh: bool)
    ensures FindRecommendedTasks(LowFirst, nullsHigh) == [Prioritized(2, High), Prioritized(3, Medium), Prioritized(1, Low)]
  {
    var low, high, medium := Prioritized(1, Low), Prioritized(2, High), Prioritized(3, Medium);
    var r := FindRecommendedTasks(LowFirst, nullsHigh);
    PrioritiesDecide(nullsHigh);
    RecommendedCompareFlips(high, medium, nullsHigh);
    RecommendedCompareFlips(medium, low, nullsHigh);
    RecommendedCompareFlips(high, low, nullsHigh);
    assert LowFirst.rows == [low, high, medium];
    assert multiset(r) == multiset([high, medium, low]);
    ThreeInStrictOrder(r, high, medium, low, RecommendedOrder(nullsHigh));
  }

  /** Three elements, each strictly below the later ones, sort in one way only. */
  lemma ThreeInStrictOrder<T>(r: seq<T>, a: T, b: T, c: T, le: (T, T) -> bool)
    requires multiset(r) == multiset([a, b, c]) && Sorted(r, le)
    requires !le(b, a) && !le(c, a) && !le(c, b)
    ensures r == [a, b, c]
  {
    var e := [a, b, c];
    assert forall i, j :: 0 <= i < j < |e| ==> !le(e[j], e[i]);
    StrictChainIsUnique(r, e, le);
  }

  /** Four elements, each strictly below the later ones, sort in one way only. */
  lemma FourInStrictOrder<T>(r: seq<T>, a: T, b: T, c: T, d: T, le: (T, T) -> bool)
    requires multiset(r) == multiset([a, b, c, d]) && Sorted(r, le)
    requires !le(b, a) && !le(c, a) && !le(d, a) && !le(c, b) && !le(d, b) && !le(d, c)
    ensures r == [a, b, c, d]
  {
    var e := [a, b, c, d];
    assert forall i, j :: 0 <= i < j < |e| ==> !le(e[j], e[i]);
    StrictChainIsUnique(r, e, le);
  }

  /** `sortBy` is compared ignoring case; anything else keeps scan order. */
  lemma SortKeyExamples()
    ensures SortKeyOf(Some("DUEDATE")) == ByDueDate
    ensures SortKeyOf(Some("Priority")) == ByPriority
    ensures SortKeyOf(Some("due_date")) == ScanOrder
    ensures SortKeyOf(None) == ScanOrder
  {
    assert Text.ToLower("DUEDATE") == Text.ToLower("dueDate");
    assert Text.ToLower("Priority") == Text.ToLower("priority");
    assert Text.ToLower("due_date")[3] != Text.ToLower("dueDate")[3];
    assert Text.ToLower("due_date")[3] != Text.ToLower("priority")[3];
  }

  const Finished: Task := Task(Some(1), Some("Ship it"), None, Some(High), Some(Done), None, Some(Created), None, None)

  /** A store whose only task is done has a summary to report, but the summary as written throws. */
  lemma SummaryAsWrittenFailsWhenAllDone(today: Date, nullsHigh: bool)
    ensures GetSummary(Store([Finished], 2), today, nullsHigh).completed == 1
    ensures GetSummary(Store([Finished], 2), today, nullsHigh).nextDueTask.None?
    ensures GetSummaryAsWritten(Store([Finished], 2), today, nullsHigh).Failure?
  {
    var st := Store([Finished], 2);
    assert Finished in FindByStatus(st, Done);
  }

  function Ranked(id: int, p: Option<Priority>): Task {
    Task(Some(id), Some("task"), None, p, None, None, Some(Created), None, None)
  }

  const Mixed: Store := Store([Ranked(1, Some(Low)), Ranked(2, None), Ranked(3, Some(High)), Ranked(4, Some(Medium))], 5)

  const PriorityQuery: SearchQuery := SearchQuery(None, None, None, None, Some("priority"))

  /** Sorting the search by priority gives HIGH, MEDIUM, LOW, then the task without a priority. */
  lemma PrioritySearchExample()
    ensures SearchTask(Mixed, PriorityQuery)
         == [Ranked(3, Some(High)), Ranked(4, Some(Medium)), Ranked(1, Some(Low)), Ranked(2, None)]
  {
    PrioritySearchIsSortedMix();
    MixedSortsByRank(SearchTask(Mixed, PriorityQuery));
  }

  /** The only arrangement of `Mixed` in descending rank. */
  lemma MixedSortsByRank(r: seq<Task>)
    requires multiset(r) == multiset(Mixed.rows) && Sorted(r, PriorityRankOrder())
    ensures r == [Ranked(3, Some(High)), Ranked(4, Some(Medium)), Ranked(1, Some(Low)), Ranked(2, None)]
  {
    var low, none, high, medium := Ranked(1, Some(Low)), Ranked(2, None), Ranked(3, Some(High)), Ranked(4, Some(Medium));
    assert multiset(r) == multiset([high, medium, low, none]) by {
      assert Mixed.rows == [low, none, high, medium];
    }
    SearchRankOrdersPriorities(None, None);
    FourInStrictOrder(r, high, medium, low, none, PriorityRankOrder());
  }

  /** The priority search returns the table's tasks in descending rank. */
  lemma PrioritySearchIsSortedMix()
    ensures var r := SearchTask(Mixed, PriorityQuery);
      multiset(r) == multiset(Mixed.rows) && Sorted(r, PriorityRankOrder())
  {
    PriorityQueryKeepsAll();
  }

  /** The priority query sorts by priority and filters nothing out. */
  lemma PriorityQueryKeepsAll()
    ensures SortKeyOf(PriorityQuery.sortBy) == ByPriority
    ensures Matched(Mixed, PriorityQuery) == Mixed.rows
  {
    assert Text.ToLower("priority")[0] != Text.ToLower("dueDate")[0];
    FilterKeepsAll(Mixed.rows, MatchesQuery(PriorityQuery));
  }

  /**
   * `@NotBlank` trims code points up to U+0020, while the search's `isBlank`
   * uses `Character.isWhitespace`: the ideographic space U+3000 is a title
   * but a blank keyword, and the control U+0001 is a keyword but no title.
   */
  lemma TitleBlanknessIsNotKeywordBlankness()
    ensures HasTitle(Ranked(1, None).(title := Some("\U{3000}"))) && Text.IsBlank("\U{3000}")
    ensures !HasTitle(Ranked(1, None).(title := Some("\U{0001}"))) && !Text.IsBlank("\U{0001}")
  {
    assert !Text.IsTrimmed("\U{3000}"[0]);
    assert !Text.IsWhitespace("\U{0001}"[0]);
  }

  /** A create body naming the existing id 1. */
  const RentBody: Task := Task(Some(1), Some("Pay rent"), None, None, None, None, None, None, None)

  /** As written, creating `RentBody` replaces "Buy milk"; the corrected create keeps it and adds a task. */
  lemma CreateWithIdExample(now: DateTime)
    ensures var o := CreateTaskAsWritten(TwoTasks, RentBody, now);
      |o.store.rows| == 2 && GetTaskById(o.store, 1).value.title == Some("Pay rent")
    ensures var o := CreateTask(TwoTasks, RentBody, now);
      |o.store.rows| == 3 && GetTaskById(o.store, 1) == Some(BuyMilk)
  {
    assert !Text.IsTrimmed("Pay rent"[0]);
    assert TwoTasks.rows[0] == BuyMilk;
    CreateWithExistingIdOverwrites(TwoTasks, RentBody, now);
  }
}

=== FILE: seqs.dfy ===
/**
 * Order-preserving filtering, counting and searching over sequences. The
 * repository's derived queries and the service's search loop are all
 * instances of `Filter`; the count queries are instances of `Count`.
 */
module Seqs {
  import opened Wrappers

  /** `a` can be obtained from `b` by deleting some elements, keeping the order of the rest. */
  ghost predicate IsSubsequence<T>(a: seq<T>, b: seq<T>)
    decreases |b|
  {
    || |a| == 0
    || (&& |b| > 0
        && ((a[0] == b[0] && IsSubsequence(a[1..], b[1..])) || IsSubsequence(a, b[1..])))
  }

  /** The elements of `s` that satisfy `p`, in their order in `s`. */
  function Filter<T(==, !new)>(s: seq<T>, p: T -> bool): (r: seq<T>)
    ensures |r| <= |s|
    ensures forall x :: x in r <==> x in s && p(x)
    ensures multiset(r) <= multiset(s)
    ensures IsSubsequence(r, s)
  {
    if |s| == 0 then []
    else if p(s[0]) then
      var rest := Filter(s[1..], p);
      assert ([s[0]] + rest)[1..] == rest;
      assert s == [s[0]] + s[1..];
      [s[0]] + rest
    else
      assert s == [s[0]] + s[1..];
      Filter(s[1..], p)
  }

  /** The number of elements of `s` that satisfy `p`. */
  function Count<T(==, !new)>(s: seq<T>, p: T -> bool): (n: nat)
    ensures n == |Filter(s, p)|
  {
    if |s| == 0 then 0
    else (if p(s[0]) then 1 else 0) + Count(s[1..], p)
  }

  /** The position of the first element of `s` that satisfies `p`, if any. */
  function FindFirst<T>(s: seq<T>, p: T -> bool): (r: Option<nat>)
    ensures r.Some? ==> r.value < |s| && p(s[r.value])
    ensures r.Some? ==> forall j :: 0 <= j < r.value ==> !p(s[j])
    ensures r.None? ==> forall j :: 0 <= j < |s| ==> !p(s[j])
  {
    if |s| == 0 then None
    else if p(s[0]) then Some(0)
    else match FindFirst(s[1..], p)
      case None => None
      case Some(i) => Some(i + 1)
  }

  /** Filtering distributes over putting one element in front. */
  lemma FilterCons<T(!new)>(x: T, s: seq<T>, p: T -> bool)
    ensures Filter([x] + s, p) == (if p(x) then [x] else []) + Filter(s, p)
  {
    assert ([x] + s)[1..] == s;
  }

  /** Filtering with a predicate every element satisfies changes nothing. */
  lemma {:induction false} FilterKeepsAll<T(!new)>(s: seq<T>, p: T -> bool)
    requires forall i :: 0 <= i < |s| ==> p(s[i])
    ensures Filter(s, p) == s
  {
    if |s| > 0 {
      FilterKeepsAll(s[1..], p);
    }
  }

  /** Two predicates that agree on the elements of `s` select the same subsequence of it. */
  lemma {:induction false} FilterAgrees<T(!new)>(s: seq<T>, p: T -> bool, q: T -> bool)
    requires forall i :: 0 <= i < |s| ==> p(s[i]) == q(s[i])
    ensures Filter(s, p) == Filter(s, q)
  {
    if |s| > 0 {
      FilterAgrees(s[1..], p, q);
    }
  }

  /** Filtering by a conjunction is filtering twice. */
  lemma {:induction false} FilterConjunction<T(!new)>(s: seq<T>, p: T -> bool, q: T -> bool, pq: T -> bool)
    requires forall x :: pq(x) == (p(x) && q(x))
    ensures Filter(s, pq) == Filter(Filter(s, p), q)
  {
    if |s| > 0 {
      FilterConjunction(s[1..], p, q, pq);
    }
  }

  /** A predicate implied by another holds of at least as many elements. */
  lemma {:induction false} CountImplied<T(!new)>(s: seq<T>, p: T -> bool, q: T -> bool)
    requires forall x :: p(x) ==> q(x)
    ensures Count(s, p) <= Count(s, q)
  {
    if |s| > 0 {
      CountImplied(s[1..], p, q);
    }
  }

  lemma {:induction false} SubsequenceOfItself<T>(s: seq<T>)
    ensures IsSubsequence(s, s)
  {
    if |s| > 0 {
      SubsequenceOfItself(s[1..]);
    }
  }

  /**
   * Elements of a subsequence appear in the same relative order in the whole:
   * whatever holds of every ordered pair of `b` holds of every ordered pair of `a`.
   */
  lemma {:induction false} SubsequencePreservesOrder<T>(a: seq<T>, b: seq<T>, i: int, j: int)
    requires IsSubsequence(a, b)
    requires 0 <= i < j < |a|
    ensures exists i', j' :: 0 <= i' < j' < |b| && b[i'] == a[i] && b[j'] == a[j]
    decreases |b|
  {
    if a[0] == b[0] && IsSubsequence(a[1..], b[1..]) {
      if i == 0 {
        SubsequenceContains(a[1..], b[1..], j - 1);
        var k :| 0 <= k < |b| - 1 && b[1..][k] == a[j];
        assert b[0] == a[0] && b[k + 1] == a[j];
      } else {
        SubsequencePreservesOrder(a[1..], b[1..], i - 1, j - 1);
        var i', j' :| 0 <= i' < j' < |b| - 1 && b[1..][i'] == a[1..][i - 1] && b[1..][j'] == a[1..][j - 1];
        assert b[i' + 1] == a[i] && b[j' + 1] == a[j];
      }
    } else {
      SubsequencePreservesOrder(a, b[1..], i, j);
      var i', j' :| 0 <= i' < j' < |b| - 1 && b[1..][i'] == a[i] && b[1..][j'] == a[j];
      assert b[i' + 1] == a[i] && b[j' + 1] == a[j];
    }
  }

  /** Every element of a subsequence is an element of the whole. */
  lemma {:induction false} SubsequenceContains<T>(a: seq<T>, b: seq<T>, i: int)
    requires IsSubsequence(a, b)
    requires 0 <= i < |a|
    ensures exists k :: 0 <= k < |b| && b[k] == a[i]
    decreases |b|
  {
    if a[0] == b[0] && IsSubsequence(a[1..], b[1..]) {
      if i > 0 {
        SubsequenceContains(a[1..], b[1..], i - 1);
        var k :| 0 <= k < |b| - 1 && b[1..][k] == a[1..][i - 1];
        assert b[k + 1] == a[i];
      }
    } else {
      SubsequenceContains(a, b[1..], i);
      var k :| 0 <= k < |b| - 1 && b[1..][k] == a[i];
      assert b[k + 1] == a[i];
    }
  }
}

=== FILE: service.dfy ===
/**
 * The service layer: create, read, update and delete by id, the filtered
 * listing, the in-memory search with its optional sort, the summary and the
 * recommendation pass-through. Each operation reads one snapshot of the
 * store; writes return the new store with what the operation returned.
 * The clock ("now", "today") and the SQL engine's NULL placement are
 * parameters.
 */
module TaskService {
  import opened Wrappers
  import opened Tasks
  import opened Seqs
  import opened StableSort
  import opened TaskOrder
  import opened TaskRepository
  import Text

  /** Why a write was refused: no row with the id, or a constraint violation. */
  datatype Error = NotFound | Invalid(violations: set<Violation>)

  /** The store after a write, and the task the write returned or its error. */
  datatype Outcome = Outcome(store: Store, result: Result<Task, Error>)

  // ---------------------------------------------------------------- create

  /**
   * `createTask`: builds the entity as the request body does, validates it,
   * and inserts it with a fresh id. A refused task leaves the store as it was.
   */
  function CreateTask(st: Store, input: Task, now: DateTime): (o: Outcome)
    ensures o.result.Success? <==> HasTitle(input) && (input.dueDate.None? || now.date <= input.dueDate.value)
    ensures o.result.Failure? ==> o.store == st && o.result.error.Invalid? && o.result.error.violations != {}
    ensures o.result.Failure? ==> o.result.error == Invalid(Validate(NewTask(input, now)))
    ensures o.result.Success? ==>
      var t := o.result.value;
      && o.store.rows == st.rows + [t]
      && t.id == Some(st.nextId)
      && (Invariant(st) ==> forall u :: u in st.rows ==> u.id != t.id)
      && t.createdAt == Some(now) && t.updatedAt.None?
      && SameContent(t, input)
  {
    var candidate := NewTask(input, now);
    var violations := Validate(candidate);
    if violations != {} then Outcome(st, Failure(Invalid(violations)))
    else
      var (saved, t) := InsertRow(st, candidate);
      Outcome(saved, Success(t))
  }

  lemma CreatePreservesInvariant(st: Store, input: Task, now: DateTime)
    requires Invariant(st)
    ensures Invariant(CreateTask(st, input, now).store)
  {
    var o := CreateTask(st, input, now);
    if o.result.Success? {
      var rows := o.store.rows;
      assert forall i :: 0 <= i < |st.rows| ==> rows[i] == st.rows[i];
    }
  }

  /** Create never changes what an existing id finds. */
  lemma CreateKeepsExistingTasks(st: Store, input: Task, now: DateTime, id: int)
    requires GetTaskById(st, id).Some?
    ensures GetTaskById(CreateTask(st, input, now).store, id) == GetTaskById(st, id)
  {
    var o := CreateTask(st, input, now);
    if o.result.Success? {
      FindByIdAppend(st, o.result.value, o.store.nextId, id);
    }
  }

  /**
   * `createTask` as written. The request body may carry an `id`, since that
   * field is not read-only, and `save` of an entity with an id merges it.
   * When the id names a row, that row is overwritten with the body: its
   * `createdAt` column is not updatable and keeps its stored value, and
   * `updatedAt`, which a body cannot set, becomes NULL. The caller gets back
   * the merged instance, which carries the body's `createdAt`, the time of
   * the request, rather than the stored one. Otherwise the task is inserted
   * under a fresh id, as in `CreateTask`.
   */
  function CreateTaskAsWritten(st: Store, input: Task, now: DateTime): (o: Outcome)
    ensures input.id.None? || GetTaskById(st, input.id.value).None? ==> o == CreateTask(st, input, now)
    ensures input.id.Some? && GetTaskById(st, input.id.value).Some? ==>
      && (o.result.Success? <==> CreateTask(st, input, now).result.Success?)
      && (o.result.Failure? ==> o.store == st && o.result == CreateTask(st, input, now).result)
      && (o.result.Success? ==>
            && |o.store.rows| == |st.rows| && o.store.nextId == st.nextId
            && (forall j :: 0 <= j < |st.rows| && st.rows[j].id != input.id ==> o.store.rows[j] == st.rows[j])
            && GetTaskById(o.store, input.id.value).Some?
            && var stored := GetTaskById(o.store, input.id.value).value;
            && SameContent(stored, input) && stored.updatedAt.None?
            && stored.createdAt == GetTaskById(st, input.id.value).value.createdAt
            && SameContent(o.result.value, input) && o.result.value.id == input.id
            && o.result.value.updatedAt.None? && o.result.value.createdAt == Some(now))
  {
    var found := if input.id.Some? then FindIndexById(st, input.id.value) else None;
    match found
    case None => CreateTask(st, input, now)
    case Some(i) =>
      var candidate := input.(createdAt := Some(now), updatedAt := None);
      var violations := Validate(candidate);
      if violations != {} then Outcome(st, Failure(Invalid(violations)))
      else
        var (saved, _) := UpdateRow(st, i, candidate);
        FirstIndexUnchanged(st, saved, i, input.id.value);
        Outcome(saved, Success(candidate))
  }

  /**
   * A create whose body names an existing id replaces that task instead of
   * adding one: the as-written create leaves the number of tasks and every
   * other task unchanged and the id now finds the body's content, where
   * `CreateTask` keeps the old task and appends a new one.
   */
  lemma CreateWithExistingIdOverwrites(st: Store, input: Task, now: DateTime)
    requires input.id.Some? && GetTaskById(st, input.id.value).Some?
    requires CreateTask(st, input, now).result.Success?
    ensures var o := CreateTaskAsWritten(st, input, now);
      && o.result.Success?
      && |o.store.rows| == |st.rows|
      && (forall j :: 0 <= j < |st.rows| && st.rows[j].id != input.id ==> o.store.rows[j] == st.rows[j])
      && SameContent(GetTaskById(o.store, input.id.value).value, input)
    ensures var o := CreateTask(st, input, now);
      && |o.store.rows| == |st.rows| + 1
      && GetTaskById(o.store, input.id.value) == GetTaskById(st, input.id.value)
  {
    CreateKeepsExistingTasks(st, input, now, input.id.value);
  }

  // ---------------------------------------------------------------- read

  /** `getTaskById`: the task with that id, or absent. */
  function GetTaskById(st: Store, id: int): (r: Option<Task>)
    ensures r.Some? ==> r.value in st.rows && r.value.id == Some(id)
    ensures r.None? <==> forall t :: t in st.rows ==> t.id != Some(id)
  {
    FindById(st, id)
  }

  // ---------------------------------------------------------------- update

  /**
   * `updateTask`: on a hit, overwrites the six editable fields from `patch`,
   * stamps `updatedAt` with `now` and saves; `id` and `createdAt` stay. A miss
   * is `NotFound` and a row the validator refuses is `Invalid`; both leave
   * the store unchanged.
   */
  function UpdateTask(st: Store, id: int, patch: Task, now: DateTime): (o: Outcome)
    ensures o.result == Failure(NotFound) <==> GetTaskById(st, id).None?
    ensures o.result.Failure? ==> o.store == st
    ensures o.result.Success? ==>
      && GetTaskById(st, id).Some?
      && var before := GetTaskById(st, id).value;
      && var after := o.result.value;
      && after.id == before.id == Some(id)
      && after.createdAt == before.createdAt
      && after.updatedAt == Some(now)
      && SameContent(after, patch)
      && GetTaskById(o.store, id) == Some(after)
      && o.store.nextId == st.nextId
      && |o.store.rows| == |st.rows|
      && (forall j :: 0 <= j < |st.rows| && st.rows[j] != before ==> o.store.rows[j] == st.rows[j])
    ensures GetTaskById(st, id).Some? ==>
      (o.result.Success? <==> IsValid(ApplyPatch(GetTaskById(st, id).value, patch, now)))
    ensures GetTaskById(st, id).Some? && o.result.Failure? ==>
      o.result.error == Invalid(Validate(ApplyPatch(GetTaskById(st, id).value, patch, now)))
  {
    match FindIndexById(st, id)
    case None => Outcome(st, Failure(NotFound))
    case Some(i) =>
      var merged := ApplyPatch(st.rows[i], patch, now);
      var violations := Validate(merged);
      if violations != {} then Outcome(st, Failure(Invalid(violations)))
      else
        var (saved, t) := UpdateRow(st, i, merged);
        FirstIndexUnchanged(st, saved, i, id);
        Outcome(saved, Success(t))
  }

  /**
   * What `updateTask` hands back to its caller: the saved task, or on a miss
   * a blank `new Task()`; a refused row surfaces as the validator's error.
   * The blank task is the only result without an id, so a miss is known by
   * its absent id.
   */
  function UpdateTaskReturn(st: Store, id: int, patch: Task, now: DateTime): (r: Result<Task, set<Violation>>)
    ensures GetTaskById(st, id).None? <==> r == Success(BlankTask(now))
    ensures r.Success? ==> (r.value.id.None? <==> GetTaskById(st, id).None?)
    ensures r.Failure? <==> UpdateTask(st, id, patch, now).result.Failure? && GetTaskById(st, id).Some?
    ensures r.Success? && GetTaskById(st, id).Some? ==> UpdateTask(st, id, patch, now).result == Success(r.value)
    ensures r.Failure? ==> UpdateTask(st, id, patch, now).result == Failure(Invalid(r.error))
  {
    match UpdateTask(st, id, patch, now).result
    case Success(t) => Success(t)
    case Failure(NotFound) => Success(BlankTask(now))
    case Failure(Invalid(vs)) => Failure(vs)
  }

  /** Replacing row `i`, the first row with `id`, by a row with the same id keeps it the first. */
  lemma FirstIndexUnchanged(st: Store, st': Store, i: nat, id: int)
    requires FindIndexById(st, id) == Some(i)
    requires |st'.rows| == |st.rows| && st'.rows[i].id == Some(id)
    requires forall j :: 0 <= j < |st.rows| && j != i ==> st'.rows[j] == st.rows[j]
    ensures FindById(st', id) == Some(st'.rows[i])
  {
    assert forall j :: 0 <= j < i ==> !HasId(id)(st.rows[j]);
  }

  lemma UpdatePreservesInvariant(st: Store, id: int, patch: Task, now: DateTime)
    requires Invariant(st)
    ensures Invariant(UpdateTask(st, id, patch, now).store)
  {
    match FindIndexById(st, id)
    case None =>
    case Some(i) =>
      var merged := ApplyPatch(st.rows[i], patch, now);
      if Validate(merged) == {} {
        var (saved, t) := UpdateRow(st, i, merged);
        assert UpdateTask(st, id, patch, now).store == saved;
        ReplaceRowKeepsInvariant(st, saved, i);
      }
  }

  /** Overwriting one row by a valid row with the same id and a creation time keeps the invariant. */
  lemma ReplaceRowKeepsInvariant(st: Store, st': Store, i: nat)
    requires Invariant(st) && i < |st.rows|
    requires |st'.rows| == |st.rows| && st'.nextId == st.nextId
    requires st'.rows[i].id == st.rows[i].id && IsValid(st'.rows[i]) && st'.rows[i].createdAt.Some?
    requires forall j :: 0 <= j < |st.rows| && j != i ==> st'.rows[j] == st.rows[j]
    ensures Invariant(st')
  {
    assert forall j :: 0 <= j < |st'.rows| ==> st'.rows[j].id == st.rows[j].id;
  }

  // ---------------------------------------------------------------- delete

  /** `deleteTask`: afterwards no task has the id. */
  function DeleteTask(st: Store, id: int): (r: Store)
    ensures GetTaskById(r, id).None?
    ensures IsSubsequence(r.rows, st.rows) && r.nextId == st.nextId
    ensures forall t :: t in st.rows && t.id != Some(id) ==> t in r.rows
  {
    DeleteById(st, id)
  }

  /** Deleting an id no task has changes nothing. */
  lemma DeleteAbsentIsNoOp(st: Store, id: int)
    requires GetTaskById(st, id).None?
    ensures DeleteTask(st, id) == st
  {
    FilterKeepsAll(st.rows, LacksId(id));
  }

  /** Deleting twice is deleting once. */
  lemma DeleteIsIdempotent(st: Store, id: int)
    ensures DeleteTask(DeleteTask(st, id), id) == DeleteTask(st, id)
  {
    DeleteAbsentIsNoOp(DeleteTask(st, id), id);
  }

  /** Deleting one id does not change what any other id finds. */
  lemma {:induction false} DeleteKeepsOthers(st: Store, id: int, other: int)
    requires other != id
    ensures GetTaskById(DeleteTask(st, id), other) == GetTaskById(st, other)
    decreases |st.rows|
  {
    if |st.rows| > 0 {
      var head, tail := st.rows[0], Store(st.rows[1..], st.nextId);
      DeleteKeepsOthers(tail, id, other);
      assert st.rows == [head] + tail.rows;
      FindByIdCons(head, tail.rows, st.nextId, other);
      FilterCons(head, tail.rows, LacksId(id));
      if head.id != Some(id) {
        FindByIdCons(head, DeleteTask(tail, id).rows, st.nextId, other);
      }
    }
  }

  lemma DeletePreservesInvariant(st: Store, id: int)
    requires Invariant(st)
    ensures Invariant(DeleteTask(st, id))
  {
    var r := DeleteTask(st, id);
    forall i, j | 0 <= i < j < |r.rows| ensures r.rows[i].id.value < r.rows[j].id.value {
      SubsequencePreservesOrder(r.rows, st.rows, i, j);
    }
  }

  // ---------------------------------------------------------------- list

  function MatchesFilters(status: Option<Status>, priority: Option<Priority>): Task -> bool {
    (t: Task) => (status.None? || t.status == status) && (priority.None? || t.priority == priority)
  }

  /**
   * `listTasks`: a four-way dispatch on which filters are present: both,
   * status only, priority only, neither.
   */
  function ListTasks(st: Store, status: Option<Status>, priority: Option<Priority>): (r: seq<Task>)
    ensures status.Some? && priority.Some? ==>
      forall t :: t in r <==> t in FindByStatus(st, status.value) && t in FindByPriority(st, priority.value)
    ensures status.Some? && priority.None? ==> forall t :: t in r <==> t in st.rows && t.status == status
    ensures status.None? && priority.Some? ==> forall t :: t in r <==> t in st.rows && t.priority == priority
    ensures status.None? && priority.None? ==> r == st.rows
    ensures IsSubsequence(r, st.rows)
  {
    if status.Some? && priority.Some? then
      FindByStatusAndPriority(st, status.value, priority.value)
    else if status.Some? then
      FindByStatus(st, status.value)
    else if priority.Some? then
      FindByPriority(st, priority.value)
    else
      SubsequenceOfItself(st.rows);
      st.rows
  }

  /** All four branches are one filter: keep the tasks that agree with every filter given. */
  lemma ListTasksIsOneFilter(st: Store, status: Option<Status>, priority: Option<Priority>)
    ensures ListTasks(st, status, priority) == Filter(st.rows, MatchesFilters(status, priority))
  {
    var p := MatchesFilters(status, priority);
    if status.Some? && priority.Some? {
      FilterAgrees(st.rows, HasStatusAndPriority(status.value, priority.value), p);
    } else if status.Some? {
      FilterAgrees(st.rows, HasStatus(status.value), p);
    } else if priority.Some? {
      FilterAgrees(st.rows, HasPriority(priority.value), p);
    } else {
      FilterKeepsAll(st.rows, p);
    }
  }

  // ---------------------------------------------------------------- search

  /** What `sortBy` selects, compared with the two known keys ignoring case. */
  datatype SortKey = ByDueDate | ByPriority | ScanOrder

  function SortKeyOf(sortBy: Option<string>): SortKey {
    if sortBy.None? then ScanOrder
    else if Text.EqualsIgnoreCase(sortBy.value, "dueDate") then ByDueDate
    else if Text.EqualsIgnoreCase(sortBy.value, "priority") then ByPriority
    else ScanOrder
  }

  /** The search parameters; each may be absent. */
  datatype SearchQuery = SearchQuery(
    keyword: Option<string>,
    tag: Option<string>,
    after: Option<Date>,
    before: Option<Date>,
    sortBy: Option<string>)

  /** A text parameter constrains the search only when present and not blank. */
  predicate Given(s: Option<string>) {
    s.Some? && !Text.IsBlank(s.value)
  }

  /** The keyword occurs, ignoring case, in the title or in the description. */
  predicate KeywordMatches(keyword: Option<string>, t: Task) {
    || !Given(keyword)
    || (var k := Text.ToLower(keyword.value);
        || (t.title.Some? && Text.Contains(Text.ToLower(t.title.value), k))
        || (t.description.Some? && Text.Contains(Text.ToLower(t.description.value), k)))
  }

  /** The tag occurs, with its case, in the tags. */
  predicate TagMatches(tag: Option<string>, t: Task) {
    !Given(tag) || (t.tags.Some? && Text.Contains(t.tags.value, tag.value))
  }

  /** Due on or after `after`. */
  predicate AfterMatches(after: Option<Date>, t: Task) {
    after.None? || (t.dueDate.Some? && !(t.dueDate.value < after.value))
  }

  /** Due strictly before `before`. */
  predicate BeforeMatches(before: Option<Date>, t: Task) {
    before.None? || (t.dueDate.Some? && t.dueDate.value < before.value)
  }

  function MatchesQuery(q: SearchQuery): Task -> bool {
    (t: Task) => KeywordMatches(q.keyword, t) && TagMatches(q.tag, t) && AfterMatches(q.after, t) && BeforeMatches(q.before, t)
  }

  /** The tasks the search loop keeps, in scan order, before any sort. */
  function Matched(st: Store, q: SearchQuery): (r: seq<Task>)
    ensures IsSubsequence(r, st.rows)
  {
    Filter(st.rows, MatchesQuery(q))
  }

  /**
   * `searchTask`: the tasks meeting every given constraint, stably sorted by
   * due date (absent last) or by descending priority rank when `sortBy`
   * asks for it, in scan order otherwise.
   */
  function SearchTask(st: Store, q: SearchQuery): (r: seq<Task>)
    ensures forall t :: t in r <==>
      && t in st.rows
      && KeywordMatches(q.keyword, t) && TagMatches(q.tag, t)
      && AfterMatches(q.after, t) && BeforeMatches(q.before, t)
    ensures multiset(r) == multiset(Matched(st, q))
    ensures SortKeyOf(q.sortBy) == ScanOrder ==> IsSubsequence(r, st.rows) && r == Matched(st, q)
    ensures SortKeyOf(q.sortBy) == ByDueDate ==>
      Sorted(r, DueDateOrder(true)) && KeepsTieOrder(r, Matched(st, q), DueDateOrder(true))
    ensures SortKeyOf(q.sortBy) == ByPriority ==>
      Sorted(r, PriorityRankOrder()) && KeepsTieOrder(r, Matched(st, q), PriorityRankOrder())
  {
    var matched := Matched(st, q);
    match SortKeyOf(q.sortBy)
    case ByDueDate =>
      DueDateOrderIsTotalPreorder(true);
      SortKeepsElements(matched, DueDateOrder(true));
      Sort(matched, DueDateOrder(true))
    case ByPriority =>
      PriorityRankOrderIsTotalPreorder();
      SortKeepsElements(matched, PriorityRankOrder());
      Sort(matched, PriorityRankOrder())
    case ScanOrder => matched
  }

  /**
   * A sorted search result is the only arrangement of the matched tasks that
   * is ordered and keeps ties in scan order, so it is what any stable sort
   * (the one `List.sort` guarantees) produces.
   */
  lemma SearchSortIsDetermined(st: Store, q: SearchQuery, r: seq<Task>)
    requires SortKeyOf(q.sortBy) != ScanOrder
    requires var le := if SortKeyOf(q.sortBy) == ByDueDate then DueDateOrder(true) else PriorityRankOrder();
      Sorted(r, le) && KeepsTieOrder(r, Matched(st, q), le)
    ensures r == SearchTask(st, q)
  {
    if SortKeyOf(q.sortBy) == ByDueDate {
      DueDateOrderIsTotalPreorder(true);
      SortIsUnique(Matched(st, q), r, DueDateOrder(true));
    } else {
      PriorityRankOrderIsTotalPreorder();
      SortIsUnique(Matched(st, q), r, PriorityRankOrder());
    }
  }

  /** In a due-date-sorted result, dated tasks ascend and every undated task comes after every dated one. */
  lemma DueDateSortOrder(st: Store, q: SearchQuery, i: int, j: int)
    requires SortKeyOf(q.sortBy) == ByDueDate
    requires 0 <= i < j < |SearchTask(st, q)|
    ensures var r := SearchTask(st, q);
      && (r[i].dueDate.Some? && r[j].dueDate.Some? ==> r[i].dueDate.value <= r[j].dueDate.value)
      && (r[i].dueDate.None? ==> r[j].dueDate.None?)
  {
    var r := SearchTask(st, q);
    assert DueDateOrder(true)(r[i], r[j]);
  }

  /** In a priority-sorted result the rank never rises: HIGH, MEDIUM, LOW, then no priority. */
  lemma PrioritySortOrder(st: Store, q: SearchQuery, i: int, j: int)
    requires SortKeyOf(q.sortBy) == ByPriority
    requires 0 <= i < j < |SearchTask(st, q)|
    ensures var r := SearchTask(st, q);
      SearchRank(r[i].priority) >= SearchRank(r[j].priority)
  {
    var r := SearchTask(st, q);
    assert PriorityRankOrder()(r[i], r[j]);
  }

  /** Lower-casing the keyword does not change which tasks it matches. */
  lemma KeywordMatchIgnoresCase(keyword: string, t: Task)
    ensures KeywordMatches(Some(Text.ToLower(keyword)), t) == KeywordMatches(Some(keyword), t)
  {
    Text.ToLowerIdempotent(keyword);
  }

  /**
   * A given keyword matches exactly when its lower-cased text occurs in the
   * lower-cased title or description; an absent or blank one matches every task.
   */
  lemma KeywordMatchIsSubstring(keyword: Option<string>, t: Task)
    ensures !Given(keyword) ==> KeywordMatches(keyword, t)
    ensures Given(keyword) ==>
      (KeywordMatches(keyword, t) <==>
        || (t.title.Some? && exists i :: Text.OccursAt(Text.ToLower(t.title.value), Text.ToLower(keyword.value), i))
        || (t.description.Some?
            && exists i :: Text.OccursAt(Text.ToLower(t.description.value), Text.ToLower(keyword.value), i)))
  {
  }

  /** A given tag matches exactly when it occurs, case kept, in the tags; an absent or blank one matches every task. */
  lemma TagMatchIsSubstring(tag: Option<string>, t: Task)
    ensures !Given(tag) ==> TagMatches(tag, t)
    ensures Given(tag) ==> (TagMatches(tag, t) <==> t.tags.Some? && exists i :: Text.OccursAt(t.tags.value, tag.value, i))
  {
  }

  /** `after` is an inclusive lower bound, `before` an exclusive upper bound; either excludes undated tasks. */
  lemma DateBounds(after: Option<Date>, before: Option<Date>, t: Task)
    ensures after.Some? ==> (AfterMatches(after, t) <==> t.dueDate.Some? && after.value <= t.dueDate.value)
    ensures before.Some? ==> (BeforeMatches(before, t) <==> t.dueDate.Some? && t.dueDate.value < before.value)
  {
  }

  // ---------------------------------------------------------------- summary

  /** The summary map's entries. */
  datatype Summary = Summary(
    total: nat,
    completed: nat,
    pending: int,
    high: nat,
    medium: nat,
    low: nat,
    overdue: nat,
    nextDueTask: Option<Task>)

  /**
   * `getSummary` over one snapshot of the store, with an absent next-due task
   * reported as absent.
   */
  function GetSummary(st: Store, today: Date, nullsHigh: bool): (s: Summary)
    ensures s.total == |st.rows|
    ensures s.completed == |FindByStatus(st, Done)|
    ensures s.pending == s.total - s.completed && s.pending >= 0
    ensures s.high == |FindByPriority(st, High)| && s.medium == |FindByPriority(st, Medium)|
    ensures s.low == |FindByPriority(st, Low)|
    ensures s.high + s.medium + s.low <= s.total
    ensures s.overdue == |Filter(st.rows, IsOverdue(today))| && s.overdue <= s.pending
    ensures s.nextDueTask == FindNextDueTask(st, nullsHigh)
    ensures s.nextDueTask.None? <==> forall t :: t in st.rows ==> !IsOpen(t)
  {
    var total := |st.rows|;
    var completed := CountByStatus(st, Done);
    var high := CountByPriority(st, High);
    var medium := CountByPriority(st, Medium);
    var low := CountByPriority(st, Low);
    var overdue := CountOverdueTasks(st, today);
    StatusNotIsComplement(st, Done);
    PriorityCountsBounded(st.rows);
    Summary(total, completed, total - completed, high, medium, low, overdue, FindNextDueTask(st, nullsHigh))
  }

  /** The three priority counts never add up to more than the rows: a task has at most one priority. */
  lemma {:induction false} PriorityCountsBounded(rows: seq<Task>)
    ensures Count(rows, HasPriority(High)) + Count(rows, HasPriority(Medium)) + Count(rows, HasPriority(Low)) <= |rows|
  {
    if |rows| > 0 {
      PriorityCountsBounded(rows[1..]);
    }
  }

  /** Why the summary map could not be built. */
  datatype SummaryFailure = NullMapValue

  /**
   * `getSummary` as written: `Map.of` throws on a null value, and the
   * next-due query returns null when no task is open.
   */
  function GetSummaryAsWritten(st: Store, today: Date, nullsHigh: bool): (r: Result<Summary, SummaryFailure>)
    ensures r.Failure? <==> forall t :: t in st.rows ==> !IsOpen(t)
    ensures r.Success? ==> r.value == GetSummary(st, today, nullsHigh)
  {
    var s := GetSummary(st, today, nullsHigh);
    if s.nextDueTask.None? then Failure(NullMapValue) else Success(s)
  }

  /** On an empty store the summary as written fails instead of reporting zero tasks. */
  lemma SummaryAsWrittenFailsOnEmptyStore(today: Date, nullsHigh: bool)
    ensures GetSummaryAsWritten(EmptyStore, today, nullsHigh).Failure?
    ensures GetSummary(EmptyStore, today, nullsHigh).total == 0
  {
  }

  // ---------------------------------------------------------------- recommended

  /** `getRecommended`: the recommendation query's result, unchanged. */
  function GetRecommended(st: Store, nullsHigh: bool): (r: seq<Task>)
    ensures multiset(r) == multiset(st.rows)
    ensures forall i, j :: 0 <= i < j < |r| ==> RecommendedCompare(r[i], r[j], nullsHigh) <= 0
  {
    FindRecommendedTasks(st, nullsHigh)
  }
}

=== FILE: stable_sort.dfy ===
/**
 * Stable sorting by a total preorder, the semantics of Java's `List.sort`
 * with a consistent comparator: the result is ordered, and elements the
 * comparator ties keep the order they had in the input. The two properties
 * determine the result uniquely (`SortedTieStableIsUnique`), so any stable
 * algorithm, TimSort included, produces `Sort`'s result.
 */
module StableSort {
  import opened Seqs

  /** `le` is total and transitive: what a consistent Java comparator provides as `compare(a, b) <= 0`. */
  ghost predicate IsTotalPreorder<T(!new)>(le: (T, T) -> bool) {
    && (forall x, y :: le(x, y) || le(y, x))
    && (forall x, y, z :: le(x, y) && le(y, z) ==> le(x, z))
  }

  ghost predicate Sorted<T>(s: seq<T>, le: (T, T) -> bool) {
    forall i, j :: 0 <= i < j < |s| ==> le(s[i], s[j])
  }

  /** The elements the comparator cannot tell apart from `k`. */
  function TiedWith<T>(le: (T, T) -> bool, k: T): T -> bool {
    x => le(x, k) && le(k, x)
  }

  /** Every group of tied elements appears in `r` in the same order as in `s`. */
  ghost predicate KeepsTieOrder<T(!new)>(r: seq<T>, s: seq<T>, le: (T, T) -> bool) {
    forall k :: Filter(r, TiedWith(le, k)) == Filter(s, TiedWith(le, k))
  }

  /** Puts `x` in front of the first element of `s` that is not below it. */
  function Insert<T(==)>(x: T, s: seq<T>, le: (T, T) -> bool): (r: seq<T>)
    ensures multiset(r) == multiset(s) + multiset{x}
  {
    if |s| == 0 || le(x, s[0]) then [x] + s
    else
      assert s == [s[0]] + s[1..];
      [s[0]] + Insert(x, s[1..], le)
  }

  /** Stable insertion sort. */
  function Sort<T(==, !new)>(s: seq<T>, le: (T, T) -> bool): (r: seq<T>)
    requires IsTotalPreorder(le)
    ensures multiset(r) == multiset(s)
    ensures Sorted(r, le)
    ensures KeepsTieOrder(r, s, le)
  {
    if |s| == 0 then []
    else
      var rest := Sort(s[1..], le);
      assert s == [s[0]] + s[1..];
      InsertSorted(s[0], rest, le);
      InsertKeepsTieOrder(s, rest, le);
      Insert(s[0], rest, le)
  }

  lemma {:induction false} InsertSorted<T(!new)>(x: T, s: seq<T>, le: (T, T) -> bool)
    requires IsTotalPreorder(le)
    requires Sorted(s, le)
    ensures Sorted(Insert(x, s, le), le)
  {
    var r := Insert(x, s, le);
    if |s| == 0 {
    } else if le(x, s[0]) {
      forall i, j | 0 <= i < j < |r| ensures le(r[i], r[j]) {
        if i == 0 && j > 1 {
          assert le(s[0], s[j - 1]);
        }
      }
    } else {
      InsertSorted(x, s[1..], le);
      var tail := Insert(x, s[1..], le);
      assert r == [s[0]] + tail;
      forall j | 0 < j < |r| ensures le(r[0], r[j]) {
        assert r[j] in multiset(tail);
        if r[j] != x {
          assert r[j] in s[1..];
        }
      }
    }
  }

  lemma SortedTail<T>(s: seq<T>, le: (T, T) -> bool)
    requires |s| > 0 && Sorted(s, le)
    ensures Sorted(s[1..], le)
  {
    forall i, j | 0 <= i < j < |s| - 1 ensures le(s[1..][i], s[1..][j]) {
      assert s[1..][i] == s[i + 1] && s[1..][j] == s[j + 1];
    }
  }

  /** An element strictly above a member of `k`'s tie group is outside that group. */
  lemma TiedBelow<T(!new)>(le: (T, T) -> bool, k: T, x: T, y: T)
    requires IsTotalPreorder(le)
    requires TiedWith(le, k)(x) && !le(x, y)
    ensures !TiedWith(le, k)(y)
  {
  }

  /** Inserting `x` adds it to its own tie group, in front, and leaves every other group alone. */
  lemma {:induction false} InsertTies<T(!new)>(x: T, s: seq<T>, le: (T, T) -> bool, k: T)
    requires IsTotalPreorder(le)
    requires Sorted(s, le)
    ensures Filter(Insert(x, s, le), TiedWith(le, k))
         == (if TiedWith(le, k)(x) then [x] else []) + Filter(s, TiedWith(le, k))
  {
    var c := TiedWith(le, k);
    if |s| == 0 {
      FilterCons(x, s, c);
    } else if le(x, s[0]) {
      FilterCons(x, s, c);
    } else {
      var tail := Insert(x, s[1..], le);
      assert Insert(x, s, le) == [s[0]] + tail;
      assert s == [s[0]] + s[1..];
      SortedTail(s, le);
      InsertTies(x, s[1..], le, k);
      if c(x) {
        TiedBelow(le, k, x, s[0]);
      }
      FilterBehindHead(x, s[0], tail, s[1..], c);
    }
  }

  /**
   * The sequence step of `InsertTies`: if `x` joins the kept part of `tail`
   * in front, it still does so once `y` is put in front of both sides,
   * provided `x` and `y` are not both kept.
   */
  lemma FilterBehindHead<T(!new)>(x: T, y: T, tail: seq<T>, rest: seq<T>, c: T -> bool)
    requires Filter(tail, c) == (if c(x) then [x] else []) + Filter(rest, c)
    requires !(c(x) && c(y))
    ensures Filter([y] + tail, c) == (if c(x) then [x] else []) + Filter([y] + rest, c)
  {
    FilterCons(y, tail, c);
    FilterCons(y, rest, c);
  }

  lemma InsertKeepsTieOrder<T(!new)>(s: seq<T>, rest: seq<T>, le: (T, T) -> bool)
    requires IsTotalPreorder(le)
    requires |s| > 0
    requires Sorted(rest, le)
    requires KeepsTieOrder(rest, s[1..], le)
    ensures KeepsTieOrder(Insert(s[0], rest, le), s, le)
  {
    forall k
      ensures Filter(Insert(s[0], rest, le), TiedWith(le, k)) == Filter(s, TiedWith(le, k))
    {
      InsertTies(s[0], rest, le, k);
    }
  }

  /** The head of a sorted sequence is below everything in it. */
  lemma HeadIsLeast<T(!new)>(a: seq<T>, le: (T, T) -> bool, y: T)
    requires IsTotalPreorder(le)
    requires Sorted(a, le) && y in a
    ensures le(a[0], y)
  {
    var i :| 0 <= i < |a| && a[i] == y;
    if i == 0 {
      assert le(y, y);
    }
  }

  /** A non-empty sequence has a non-empty tie group for its head. */
  lemma HeadInOwnGroup<T(!new)>(a: seq<T>, le: (T, T) -> bool)
    requires IsTotalPreorder(le) && |a| > 0
    ensures a[0] in Filter(a, TiedWith(le, a[0]))
  {
    assert le(a[0], a[0]);
  }

  /** Removing equal heads from sequences with equal tie groups leaves equal tie groups. */
  lemma TailsKeepTieOrder<T(!new)>(a: seq<T>, b: seq<T>, le: (T, T) -> bool)
    requires |a| > 0 && |b| > 0 && a[0] == b[0]
    requires KeepsTieOrder(a, b, le)
    ensures KeepsTieOrder(a[1..], b[1..], le)
  {
    forall k ensures Filter(a[1..], TiedWith(le, k)) == Filter(b[1..], TiedWith(le, k)) {
      var c := TiedWith(le, k);
      assert a == [a[0]] + a[1..];
      assert b == [b[0]] + b[1..];
      FilterCons(a[0], a[1..], c);
      FilterCons(b[0], b[1..], c);
      assert Filter(a, c) == Filter(b, c);
    }
  }

  /** Sequences with the same tie groups are empty together. */
  lemma EmptyTogether<T(!new)>(a: seq<T>, b: seq<T>, le: (T, T) -> bool)
    requires IsTotalPreorder(le)
    requires KeepsTieOrder(a, b, le)
    ensures |a| == 0 <==> |b| == 0
  {
    if |a| > 0 {
      HeadInOwnGroup(a, le);
      assert Filter(b, TiedWith(le, a[0])) == Filter(a, TiedWith(le, a[0]));
    } else if |b| > 0 {
      HeadInOwnGroup(b, le);
    }
  }

  /** Sorted sequences with the same tie groups have tied heads. */
  lemma HeadsTied<T(!new)>(a: seq<T>, b: seq<T>, le: (T, T) -> bool)
    requires IsTotalPreorder(le)
    requires Sorted(a, le) && Sorted(b, le)
    requires KeepsTieOrder(a, b, le)
    requires |a| > 0 && |b| > 0
    ensures TiedWith(le, a[0])(b[0])
  {
    // Each head lies in the other sequence, and a sorted sequence starts with a least element.
    HeadInOwnGroup(a, le);
    HeadInOwnGroup(b, le);
    assert Filter(a, TiedWith(le, a[0])) == Filter(b, TiedWith(le, a[0]));
    assert Filter(a, TiedWith(le, b[0])) == Filter(b, TiedWith(le, b[0]));
    HeadIsLeast(a, le, b[0]);
    HeadIsLeast(b, le, a[0]);
  }

  /** Sorted sequences with the same tie groups start with the same element. */
  lemma SameHead<T(!new)>(a: seq<T>, b: seq<T>, le: (T, T) -> bool)
    requires IsTotalPreorder(le)
    requires Sorted(a, le) && Sorted(b, le)
    requires KeepsTieOrder(a, b, le)
    requires |a| > 0 && |b| > 0
    ensures a[0] == b[0]
  {
    HeadsTied(a, b, le);
    HeadInOwnGroup(a, le);
    var c := TiedWith(le, a[0]);
    // Both heads open the common tie group `c`.
    assert a == [a[0]] + a[1..];
    assert b == [b[0]] + b[1..];
    FilterCons(a[0], a[1..], c);
    FilterCons(b[0], b[1..], c);
    assert Filter(a, c) == Filter(b, c);
  }

  /**
   * Two sorted sequences whose tie groups agree element for element are equal:
   * sortedness plus stability pin the result down completely.
   */
  lemma {:induction false} SortedTieStableIsUnique<T(!new)>(a: seq<T>, b: seq<T>, le: (T, T) -> bool)
    requires IsTotalPreorder(le)
    requires Sorted(a, le) && Sorted(b, le)
    requires KeepsTieOrder(a, b, le)
    ensures a == b
  {
    EmptyTogether(a, b, le);
    if |a| > 0 {
      SameHead(a, b, le);
      TailsKeepTieOrder(a, b, le);
      SortedTail(a, le);
      SortedTail(b, le);
      SortedTieStableIsUnique(a[1..], b[1..], le);
      assert a == [a[0]] + a[1..];
      assert b == [b[0]] + b[1..];
    }
  }

  /** `Sort` is the only sorted, tie-stable arrangement of its input. */
  lemma SortIsUnique<T(!new)>(s: seq<T>, r: seq<T>, le: (T, T) -> bool)
    requires IsTotalPreorder(le)
    requires Sorted(r, le)
    requires KeepsTieOrder(r, s, le)
    ensures r == Sort(s, le)
  {
    var t := Sort(s, le);
    assert KeepsTieOrder(r, t, le);
    SortedTieStableIsUnique(r, t, le);
  }

  /** The first element of a non-empty sorted result is an element of the input below all of it. */
  lemma SortFirstIsLeast<T(!new)>(s: seq<T>, le: (T, T) -> bool)
    requires IsTotalPreorder(le)
    requires |s| > 0
    ensures |Sort(s, le)| > 0 && Sort(s, le)[0] in s
    ensures forall y :: y in s ==> le(Sort(s, le)[0], y)
  {
    var r := Sort(s, le);
    assert |r| == |multiset(r)| == |multiset(s)| == |s|;
    assert r[0] in multiset(s);
    forall y | y in s ensures le(r[0], y) {
      assert y in multiset(r);
      HeadIsLeast(r, le, y);
    }
  }

  /** Sorting neither adds nor drops elements. */
  lemma SortKeepsElements<T(!new)>(s: seq<T>, le: (T, T) -> bool)
    requires IsTotalPreorder(le)
    ensures forall x :: x in Sort(s, le) <==> x in s
  {
    var r := Sort(s, le);
    forall x ensures x in r <==> x in s {
      assert x in r <==> x in multiset(r);
      assert x in s <==> x in multiset(s);
    }
  }

  /**
   * When each element of `e` is strictly below every later one, `e` is the
   * only sorted arrangement of its elements.
   */
  lemma {:induction false} StrictChainIsUnique<T>(r: seq<T>, e: seq<T>, le: (T, T) -> bool)
    requires multiset(r) == multiset(e)
    requires Sorted(r, le)
    requires forall i, j :: 0 <= i < j < |e| ==> !le(e[j], e[i])
    ensures r == e
    decreases |e|
  {
    assert |r| == |multiset(r)| == |multiset(e)| == |e|;
    if |e| > 0 {
      StrictChainHead(r, e, le);
      SameTails(r, e);
      StrictChainIsUnique(r[1..], e[1..], le);
      assert r == [r[0]] + r[1..] && e == [e[0]] + e[1..];
    }
  }

  /** A sorted arrangement of a strict chain starts with the chain's least element. */
  lemma StrictChainHead<T>(r: seq<T>, e: seq<T>, le: (T, T) -> bool)
    requires multiset(r) == multiset(e) && 0 < |e|
    requires Sorted(r, le)
    requires forall i, j :: 0 <= i < j < |e| ==> !le(e[j], e[i])
    ensures 0 < |r| && r[0] == e[0]
  {
    assert e[0] in multiset(r);
    var m :| 0 <= m < |r| && r[m] == e[0];
    assert r[0] in multiset(e);
    var k :| 0 <= k < |e| && e[k] == r[0];
  }

  /** Equal heads of equal multisets leave equal multisets behind. */
  lemma SameTails<T>(r: seq<T>, e: seq<T>)
    requires multiset(r) == multiset(e) && 0 < |r| && 0 < |e| && r[0] == e[0]
    ensures multiset(r[1..]) == multiset(e[1..])
  {
    assert r == [r[0]] + r[1..] && e == [e[0]] + e[1..];
    assert multiset(r) == multiset{r[0]} + multiset(r[1..]);
    assert multiset(e) == multiset{e[0]} + multiset(e[1..]);
    assert multiset(r[1..]) == multiset(r) - multiset{r[0]};
  }
}

=== FILE: task.dfy ===
/**
 * The `Task` entity: its fields, the two Bean Validation constraints it
 * carries (a non-blank title and a due date not before the creation date)
 * and the rules that fill its system-managed fields.
 */
module Tasks {
  import opened Wrappers
  import Text

  datatype Priority = High | Medium | Low

  /** Only `DONE` is known by name; every other status value is carried by its name. */
  datatype Status = Done | Other(name: string)

  /** A `LocalDate`, as a day number. */
  type Date = int

  const NanosPerDay: nat := 86_400_000_000_000

  type NanoOfDay = n: nat | n < NanosPerDay

  /** A `LocalDateTime`: a calendar date and a time of day. */
  datatype DateTime = DateTime(date: Date, nanoOfDay: NanoOfDay)

  /** Every field is nullable, as in the entity; `id`, `createdAt` and `updatedAt` are system managed. */
  datatype Task = Task(
    id: Option<int>,
    title: Option<string>,
    description: Option<string>,
    priority: Option<Priority>,
    status: Option<Status>,
    tags: Option<string>,
    createdAt: Option<DateTime>,
    updatedAt: Option<DateTime>,
    dueDate: Option<Date>)

  /**
   * `@NotBlank` on the title, as the bundled validator decides it: present,
   * and not empty once `trim` has stripped the code points up to U+0020
   * (`TitleSurvivesTrim`).
   */
  predicate HasTitle(t: Task) {
    t.title.Some? && !Text.TrimsToEmpty(t.title.value)
  }

  /** The `@AssertTrue` check `isDueDateValid`. */
  predicate IsDueDateValid(t: Task) {
    t.dueDate.None? || t.createdAt.None? || !(t.dueDate.value < t.createdAt.value.date)
  }

  predicate IsValid(t: Task) {
    HasTitle(t) && IsDueDateValid(t)
  }

  /** A constraint violation, one per failed constraint. */
  datatype Violation = BlankTitle | DueDateBeforeCreation

  /** The set of constraint violations a validator reports for `t`. */
  function Validate(t: Task): (vs: set<Violation>)
    ensures vs == {} <==> IsValid(t)
    ensures BlankTitle in vs <==> t.title.None? || forall i :: 0 <= i < |t.title.value| ==> t.title.value[i] <= ' '
    ensures DueDateBeforeCreation in vs
            <==> t.dueDate.Some? && t.createdAt.Some? && t.dueDate.value < t.createdAt.value.date
  {
    (if HasTitle(t) then {} else {BlankTitle})
    + (if IsDueDateValid(t) then {} else {DueDateBeforeCreation})
  }

  /** With either date missing there is nothing to compare, and the check passes. */
  lemma DueDateValidWithoutBothDates(t: Task)
    requires t.dueDate.None? || t.createdAt.None?
    ensures IsDueDateValid(t)
  {
  }

  /** With both dates present, the due date may fall on the creation day but not before it. */
  lemma DueDateValidIffNotBeforeCreationDay(t: Task)
    requires t.dueDate.Some? && t.createdAt.Some?
    ensures IsDueDateValid(t) <==> t.createdAt.value.date <= t.dueDate.value
  {
  }

  /**
   * A title passes `@NotBlank` exactly when `trim` leaves something of it,
   * and then what is left starts and ends with a character above U+0020.
   */
  lemma TitleSurvivesTrim(t: Task)
    requires t.title.Some?
    ensures HasTitle(t) <==> |Text.Trim(t.title.value)| > 0
    ensures HasTitle(t) ==> var r := Text.Trim(t.title.value); ' ' < r[0] && ' ' < r[|r| - 1]
  {
  }

  /** A valid task has a title with a character above U+0020. */
  lemma ValidTitleHasVisibleChar(t: Task)
    requires IsValid(t)
    ensures t.title.Some? && exists i :: 0 <= i < |t.title.value| && t.title.value[i] > ' '
  {
  }

  /**
   * The entity as a request body produces it: `createdAt` is the construction
   * time, the read-only `updatedAt` is never taken from input, and the id is
   * left for the store to generate.
   */
  function NewTask(input: Task, now: DateTime): (t: Task)
    ensures t.id.None? && t.createdAt == Some(now) && t.updatedAt.None?
    ensures SameContent(t, input)
  {
    input.(id := None, createdAt := Some(now), updatedAt := None)
  }

  /** `new Task()`: every field null except `createdAt`, which its initializer takes from the clock. */
  function BlankTask(now: DateTime): Task {
    Task(None, None, None, None, None, None, Some(now), None, None)
  }

  /** The six client-editable fields agree. */
  predicate SameContent(a: Task, b: Task) {
    && a.title == b.title
    && a.description == b.description
    && a.priority == b.priority
    && a.status == b.status
    && a.tags == b.tags
    && a.dueDate == b.dueDate
  }

  /** Overwrites the client-editable fields of `existing` with those of `patch` and stamps `updatedAt`. */
  function ApplyPatch(existing: Task, patch: Task, now: DateTime): (t: Task)
    ensures SameContent(t, patch)
    ensures t.id == existing.id && t.createdAt == existing.createdAt
    ensures t.updatedAt == Some(now)
  {
    existing.(
      title := patch.title,
      description := patch.description,
      priority := patch.priority,
      status := patch.status,
      tags := patch.tags,
      dueDate := patch.dueDate,
      updatedAt := Some(now))
  }
}

=== FILE: task_order.dfy ===
/**
 * The orders tasks are sorted by: ascending due date (search sort and the
 * next-due query), descending priority rank (search sort), and the
 * three-key recommendation order. Each is shown to be a total preorder,
 * which is what a stable sort needs of its comparator.
 */
module TaskOrder {
  import opened Wrappers
  import opened Tasks
  import opened Ordering
  import opened StableSort

  /** Ascending due date; `nullsHigh` puts tasks without a due date last. */
  function DueDateOrder(nullsHigh: bool): (Task, Task) -> bool {
    (a: Task, b: Task) => CompareNullable(a.dueDate, b.dueDate, nullsHigh) <= 0
  }

  /** The search's priority rank: HIGH 3, MEDIUM 2, LOW 1, none 0. */
  function SearchRank(p: Option<Priority>): (rank: int)
    ensures 0 <= rank <= 3
    ensures rank == 0 <==> p.None?
  {
    match p
    case None => 0
    case Some(High) => 3
    case Some(Medium) => 2
    case Some(Low) => 1
  }

  /**
   * The ranks order the priorities HIGH above MEDIUM above LOW above none,
   * and two tasks share a rank only when they share a priority.
   */
  lemma SearchRankOrdersPriorities(p: Option<Priority>, q: Option<Priority>)
    ensures SearchRank(Some(High)) > SearchRank(Some(Medium)) > SearchRank(Some(Low)) > SearchRank(None)
    ensures SearchRank(p) == SearchRank(q) <==> p == q
  {
  }

  /** Descending search rank. */
  function PriorityRankOrder(): (Task, Task) -> bool {
    (a: Task, b: Task) => SearchRank(b.priority) <= SearchRank(a.priority)
  }

  /** The recommendation query's `CASE` rank, which has no `ELSE` and so is NULL without a priority. */
  function SqlRank(p: Option<Priority>): (rank: Option<int>)
    ensures rank.None? <==> p.None?
    ensures p.Some? ==> rank == Some(SearchRank(p))
  {
    match p
    case None => None
    case Some(High) => Some(3)
    case Some(Medium) => Some(2)
    case Some(Low) => Some(1)
  }

  /** `LENGTH(description)`, NULL without a description. */
  function DescriptionLength(t: Task): (n: Option<int>)
    ensures n.Some? <==> t.description.Some?
    ensures n.Some? ==> n.value == |t.description.value|
  {
    match t.description
    case None => None
    case Some(d) => Some(|d|)
  }

  /** Priority rank descending, then due date ascending, then description length descending. */
  function RecommendedCompare(a: Task, b: Task, nullsHigh: bool): int {
    var byRank := CompareNullable(SqlRank(b.priority), SqlRank(a.priority), nullsHigh);
    var byDue := CompareNullable(a.dueDate, b.dueDate, nullsHigh);
    var byLength := CompareNullable(DescriptionLength(b), DescriptionLength(a), nullsHigh);
    if byRank != 0 then byRank else if byDue != 0 then byDue else byLength
  }

  function RecommendedOrder(nullsHigh: bool): (Task, Task) -> bool {
    (a: Task, b: Task) => RecommendedCompare(a, b, nullsHigh) <= 0
  }

  lemma DueDateOrderIsTotalPreorder(nullsHigh: bool)
    ensures IsTotalPreorder(DueDateOrder(nullsHigh))
  {
    var le := DueDateOrder(nullsHigh);
    forall x: Task, y: Task ensures le(x, y) || le(y, x) {
      CompareNullableFlips(x.dueDate, y.dueDate, nullsHigh);
    }
    forall x: Task, y: Task, z: Task | le(x, y) && le(y, z) ensures le(x, z) {
      CompareNullableTransitive(x.dueDate, y.dueDate, z.dueDate, nullsHigh);
    }
  }

  lemma PriorityRankOrderIsTotalPreorder()
    ensures IsTotalPreorder(PriorityRankOrder())
  {
  }

  lemma RecommendedCompareFlips(a: Task, b: Task, nullsHigh: bool)
    ensures RecommendedCompare(b, a, nullsHigh) == -RecommendedCompare(a, b, nullsHigh)
  {
    CompareNullableFlips(SqlRank(a.priority), SqlRank(b.priority), nullsHigh);
    CompareNullableFlips(a.dueDate, b.dueDate, nullsHigh);
    CompareNullableFlips(DescriptionLength(a), DescriptionLength(b), nullsHigh);
  }

  lemma RecommendedCompareTransitive(a: Task, b: Task, c: Task, nullsHigh: bool)
    requires RecommendedCompare(a, b, nullsHigh) <= 0 && RecommendedCompare(b, c, nullsHigh) <= 0
    ensures RecommendedCompare(a, c, nullsHigh) <= 0
  {
    var ra, rb, rc := SqlRank(a.priority), SqlRank(b.priority), SqlRank(c.priority);
    var la, lb, lc := DescriptionLength(a), DescriptionLength(b), DescriptionLength(c);
    if CompareNullable(rb, ra, nullsHigh) != 0 || CompareNullable(rc, rb, nullsHigh) != 0 {
      // decided by rank: the rank comparisons are <= 0 and one is strict
      CompareNullableTransitive(rc, rb, ra, nullsHigh);
    } else if CompareNullable(a.dueDate, b.dueDate, nullsHigh) != 0
           || CompareNullable(b.dueDate, c.dueDate, nullsHigh) != 0 {
      CompareNullableTransitive(a.dueDate, b.dueDate, c.dueDate, nullsHigh);
    } else {
      CompareNullableTransitive(lc, lb, la, nullsHigh);
    }
  }

  lemma RecommendedOrderIsTotalPreorder(nullsHigh: bool)
    ensures IsTotalPreorder(RecommendedOrder(nullsHigh))
  {
    var le := RecommendedOrder(nullsHigh);
    forall x: Task, y: Task ensures le(x, y) || le(y, x) {
      RecommendedCompareFlips(x, y, nullsHigh);
    }
    forall x: Task, y: Task, z: Task | le(x, y) && le(y, z) ensures le(x, z) {
      RecommendedCompareTransitive(x, y, z, nullsHigh);
    }
  }
}

=== FILE: text.dfy ===
/**
 * The few `java.lang.String` operations the search and the title check rely
 * on: `isBlank`, `trim`, `toLowerCase`, `contains` and `equalsIgnoreCase`.
 * Strings are sequences of Unicode scalar values.
 */
module Text {

  /** `Character.isWhitespace`: the space, line and paragraph separators except the
      non-breaking ones, plus the ASCII controls U+0009..U+000D and U+001C..U+001F. */
  predicate IsWhitespace(c: char) {
    var n := c as int;
    || n == 0x20
    || 0x09 <= n <= 0x0D
    || 0x1C <= n <= 0x1F
    || n == 0x1680
    || 0x2000 <= n <= 0x2006
    || 0x2008 <= n <= 0x200A
    || n == 0x2028 || n == 0x2029 || n == 0x205F || n == 0x3000
  }

  /** `String.isBlank`: empty, or white space only. */
  predicate IsBlank(s: string) {
    forall i :: 0 <= i < |s| ==> IsWhitespace(s[i])
  }

  /** Lower-cases the ASCII letters and leaves every other character alone. */
  function LowerChar(c: char): (d: char)
    ensures IsWhitespace(d) == IsWhitespace(c)
    ensures !('A' <= d <= 'Z')
  {
    if 'A' <= c <= 'Z' then (c as int - 'A' as int + 'a' as int) as char else c
  }

  /** `toLowerCase`, character by character, under the ASCII mapping of `LowerChar`. */
  function ToLower(s: string): (r: string)
    ensures |r| == |s|
    ensures forall i :: 0 <= i < |s| ==> r[i] == LowerChar(s[i])
  {
    seq(|s|, i requires 0 <= i < |s| => LowerChar(s[i]))
  }

  /**
   * What `toLowerCase` does to the ASCII range: each upper-case letter
   * becomes its lower-case partner 32 code points up, every other character
   * stays, and no upper-case letter is left.
   */
  lemma ToLowerMeaning(s: string)
    ensures var r := ToLower(s);
      && (forall i :: 0 <= i < |s| && 'A' <= s[i] <= 'Z' ==> r[i] as int == s[i] as int + 32 && 'a' <= r[i] <= 'z')
      && (forall i :: 0 <= i < |s| && !('A' <= s[i] <= 'Z') ==> r[i] == s[i])
      && (forall i :: 0 <= i < |r| ==> !('A' <= r[i] <= 'Z'))
  {
  }

  /** Lower-casing is idempotent and keeps blank strings blank. */
  lemma ToLowerIdempotent(s: string)
    ensures ToLower(ToLower(s)) == ToLower(s)
    ensures IsBlank(ToLower(s)) == IsBlank(s)
  {
  }

  /** `String.trim`'s notion of blank: a code point at or below U+0020. */
  predicate IsTrimmed(c: char) {
    c <= ' '
  }

  /** Drops the leading characters `trim` strips. */
  function TrimStart(s: string): (r: string)
    ensures |r| <= |s| && r == s[|s| - |r|..]
    ensures forall i :: 0 <= i < |s| - |r| ==> IsTrimmed(s[i])
    ensures |r| > 0 ==> !IsTrimmed(r[0])
  {
    if |s| > 0 && IsTrimmed(s[0]) then TrimStart(s[1..]) else s
  }

  /** Drops the trailing characters `trim` strips. */
  function TrimEnd(s: string): (r: string)
    ensures |r| <= |s| && r == s[..|r|]
    ensures forall i :: |r| <= i < |s| ==> IsTrimmed(s[i])
    ensures |r| > 0 ==> !IsTrimmed(r[|r| - 1])
  {
    if |s| > 0 && IsTrimmed(s[|s| - 1]) then TrimEnd(s[..|s| - 1]) else s
  }

  /** Nothing is left once `trim` has run: every character is one it strips. */
  predicate TrimsToEmpty(s: string) {
    forall i :: 0 <= i < |s| ==> IsTrimmed(s[i])
  }

  /**
   * `String.trim`: strips every code point at or below U+0020 from both ends.
   * The result is the middle of `s`: what remains once the stripped
   * characters at each end are removed. It trims to nothing exactly when
   * every character is such a code point.
   */
  function Trim(s: string): (r: string)
    ensures exists a :: TrimmedSpan(s, r, a)
    ensures |r| == 0 <==> TrimsToEmpty(s)
    ensures |r| > 0 ==> !IsTrimmed(r[0]) && !IsTrimmed(r[|r| - 1])
  {
    var t := TrimStart(s);
    var r := TrimEnd(t);
    StrippedEndsLeaveSpan(s, t, r);
    r
  }

  /**
   * A front part stripped from `s` leaving `t`, then a back part stripped
   * from `t` leaving `r`: `r` is the span between the two stripped ends.
   */
  lemma StrippedEndsLeaveSpan(s: string, t: string, r: string)
    requires |t| <= |s| && t == s[|s| - |t|..]
    requires forall i :: 0 <= i < |s| - |t| ==> IsTrimmed(s[i])
    requires |r| <= |t| && r == t[..|r|]
    requires forall i :: |r| <= i < |t| ==> IsTrimmed(t[i])
    requires |r| > 0 ==> !IsTrimmed(r[0])
    ensures TrimmedSpan(s, r, |s| - |t|)
    ensures |r| == 0 <==> TrimsToEmpty(s)
  {
    var a := |s| - |t|;
    assert r == s[a..a + |r|];
    forall i | a + |r| <= i < |s|
      ensures IsTrimmed(s[i])
    {
      assert s[i] == t[i - a];
    }
    if |r| > 0 {
      assert r[0] == s[a];
    }
  }

  /**
   * `r` is `s` from position `a` on, for `|r|` characters, and every
   * character of `s` before and after that span is one `trim` strips.
   */
  ghost predicate TrimmedSpan(s: string, r: string, a: int) {
    && 0 <= a && a + |r| <= |s| && r == s[a..a + |r|]
    && (forall i :: 0 <= i < a ==> IsTrimmed(s[i]))
    && (forall i :: a + |r| <= i < |s| ==> IsTrimmed(s[i]))
  }

  /** `sub` occurs in `s` starting at position `i`. */
  ghost predicate OccursAt(s: string, sub: string, i: int) {
    0 <= i && i + |sub| <= |s| && s[i..i + |sub|] == sub
  }

  /** `String.contains`: `sub` occurs somewhere in `s` (the empty string occurs everywhere). */
  predicate Contains(s: string, sub: string)
    ensures Contains(s, sub) <==> exists i :: OccursAt(s, sub, i)
    decreases |s|
  {
    if sub <= s then
      assert OccursAt(s, sub, 0);
      true
    else if |s| == 0 then
      false
    else
      OccursShift(s, sub);
      Contains(s[1..], sub)
  }

  /** Occurrences in `s` past position 0 are the occurrences in `s[1..]`, shifted by one. */
  lemma OccursShift(s: string, sub: string)
    requires |s| > 0
    ensures !OccursAt(s, sub, 0) ==> forall i :: OccursAt(s, sub, i) ==> OccursAt(s[1..], sub, i - 1)
    ensures forall j :: OccursAt(s[1..], sub, j) ==> OccursAt(s, sub, j + 1)
  {
    forall i | OccursAt(s, sub, i) && i > 0 ensures OccursAt(s[1..], sub, i - 1) {
      assert s[1..][i - 1..i - 1 + |sub|] == s[i..i + |sub|];
    }
    forall j | OccursAt(s[1..], sub, j) ensures OccursAt(s, sub, j + 1) {
      assert s[1..][j..j + |sub|] == s[j + 1..j + 1 + |sub|];
    }
  }

  /** `String.equalsIgnoreCase`, for the ASCII letters. */
  predicate EqualsIgnoreCase(a: string, b: string) {
    ToLower(a) == ToLower(b)
  }
}

=== FILE: wrappers.dfy ===
/** Optional values and results standing in for Java's `null` and exceptions. */
module Wrappers {

  /** A value that may be absent, standing for a nullable Java reference. */
  datatype Option<+T> = None | Some(value: T)

  /** The outcome of an operation that can fail with an error of type `E`. */
  datatype Result<+R, +E> = Success(value: R) | Failure(error: E)
}
